=== FILE: README.md ===
# Wordle Noir core, modelled in Dafny

This project models the pure logic of a small web app. The app offers a
daily Spanish word-guessing game, together with users and groups:

- **The guess evaluator** (`evaluateGuess`). It lowercases the answer and
  the guess and rejects them if their lengths differ. Otherwise it
  classifies every position as `correct`, `present` or `absent` in two
  passes. Pass 1 marks exact matches and counts the answer letters left
  unmatched. Pass 2 gives `present` from left to right while the guessed
  letter's count lasts.
- **The game page.** It covers `formatTime` (`MM:SS`), the keyboard
  colouring (each key keeps the best state its letter has received), the
  current-guess buffer, and `handleKeyInput`. `handleKeyInput` handles
  backspace, letter keys and Enter, and the won/lost transitions capped at
  six attempts. It is written as a pure function from page state to page
  state.
- **The word-list seeding pipeline.** Lines are trimmed and lowercased,
  filtered to five letters `a`-`z`, and deduplicated keeping first
  occurrences. The run needs at least 600 words and takes the first 600.
- **The result-submission endpoint.** It authenticates, runs a validation
  cascade, and stores at most one result per (user, day). The store is
  modelled as an abstract map.
- **The dashboard's member selection.** This is the list-as-set toggle,
  plus the filters that leave out the current user.

Files and modules:

| file | module | models |
|---|---|---|
| `optional.dfy` | `Optional` | `null` / `undefined` as `Option` |
| `case_fold.dfy` | `CaseFold` | `toLowerCase` / `toUpperCase` per character |
| `wordle.dfy` | `Wordle` | `evaluateGuess`: the reference definition `Evaluate` and the two-pass method `EvaluateGuess`, proved to compute it |
| `wordle_laws.dfy` | `WordleLaws` | repeated-letter budget, leftmost priority, case insensitivity |
| `time_format.dfy` | `TimeFormat` | `formatTime` |
| `keyboard.dfy` | `Keyboard` | the `keyboardState` priority merge |
| `guess_buffer.dfy` | `GuessBuffer` | backspace and letter insertion on the buffer |
| `game_page.dfy`, `game_page_laws.dfy` | `GamePage`, `GamePageLaws` | `handleKeyInput` and the page invariant |
| `seed_words.dfy` | `SeedWords` | the pipeline in the seed script's `main` |
| `result_store.dfy` | `ResultStore` | `POST` of the result endpoint |
| `sequences.dfy` | `Sequences` | `Array.prototype.filter` and lists without repeats |
| `accounts.dfy` | `Accounts` | the session user |
| `dashboard.dfy` | `Dashboard` | `toggleSelectedMember`, `assignableUsers`, `extraMembers` |

Modelling choices:

- **Evaluator.** The reference definition says that a non-exact position
  is `Present` exactly when fewer earlier non-exact positions guessed the
  same letter than the answer has unmatched copies of it. The method
  `EvaluateGuess` follows the source's two loops and its per-letter
  counter map, and it is proved to return the reference result.
- **JSON body.** The result endpoint receives a parsed JSON value.
  Numbers are finite reals, so a value such as `2.5` attempts passes
  validation exactly as it does in the source. `JSON.parse` also yields
  `Infinity` for an out-of-range literal such as `1e400`; that value is
  not represented (see "Left out"). Truthiness follows
  JavaScript: `null`, `false`, `0` and `""` count as a missing body.
- **Missing target word.** On the game page, `!targetWord` also rejects
  an empty target word, so an empty target is treated as no word loaded.
- **Keyboard colouring.** A guessed letter with no state (an index past
  the end of `states`) leaves the key as it was. In the source that case
  stores `undefined`, which every later read treats as "no colour".

Where the text and the code disagree, the model follows the code. The
comment on `evaluateGuess` (src/lib/game/wordle.ts:8-14) says that
`absent` means the letter is not in the word. The code also gives
`absent` to a letter that is in the word once its unmatched copies are
used up.

## Model

| member | source | states |
|---|---|---|
| CaseFold.Lower | src/lib/game/wordle.ts:16-17 | lowercasing maps A-Z onto a-z (32 code points up) and each of Ñ, Á, É, Í, Ó, Ú, Ü onto its own small form (the pairs of `SpanishPairs`), leaves every other character unchanged, so nothing else lands in a-z, and never yields an ASCII capital |
| CaseFold.LowerStr | src/lib/game/wordle.ts:16-17 | lowercasing a string keeps its length and leaves no ASCII capital |
| CaseFold.Upper | src/app/jugar-wordle/page.tsx:157 | uppercasing maps a-z onto A-Z (32 code points down) and each of ñ, á, é, í, ó, ú, ü onto its own capital (the pairs of `SpanishPairs`), leaves every other character unchanged, so nothing else lands in A-Z, and never yields an ASCII small letter |
| CaseFold.UpperStr | src/app/jugar-wordle/page.tsx:157 | uppercasing a string keeps its length and leaves no ASCII small letter |
| CaseFold.LowerStrOfUpperStr | src/lib/game/wordle.ts:16-17 | lowercasing after uppercasing gives the same string as lowercasing alone |
| CaseFold.LowerStrIdempotent | src/app/jugar-wordle/page.tsx:173 | lowercasing an already lowercased guess changes nothing |
| Wordle.Evaluate | src/lib/game/wordle.ts:15-54 | the evaluation fails exactly when the lengths differ, reporting the answer length; on success there is one state per answer position, and position i is correct exactly when the lowercased letters at i agree |
| Wordle.ExactPass | src/lib/game/wordle.ts:24-38 | pass 1 marks exactly the exact matches correct and leaves each letter's counter at the number of its non-exact answer positions |
| Wordle.PartialPass | src/lib/game/wordle.ts:40-51 | pass 2, given pass 1's marks and counters, produces the reference classification |
| Wordle.EvaluateGuess | src/lib/game/wordle.ts:15-54 | the two-pass algorithm with its counter map returns exactly the reference evaluation, including the length-mismatch failure |
| WordleLaws.PresentMatchesBudget | src/lib/game/wordle.ts:28-51 | for every letter c, the number of present positions guessing c is the minimum of its non-exact guess positions and its non-exact answer positions |
| WordleLaws.CreditWithinAnswerCount | src/lib/game/wordle.ts:28-51 | for every letter c, correct plus present positions guessing c never exceed the copies of c in the lowercased answer |
| WordleLaws.LeftmostArePresent | src/lib/game/wordle.ts:41-51 | among non-exact positions guessing the same letter, a later one is present only if every earlier one is |
| WordleLaws.AbsentWithoutBudget | src/lib/game/wordle.ts:24-50 | a non-exact position whose letter occurs at no non-exact answer position is absent |
| WordleLaws.SameWordAllCorrect | src/lib/game/wordle.ts:16-33 | a guess equal to the answer up to case is correct at every position |
| WordleLaws.CaseInsensitive | src/lib/game/wordle.ts:16-17 | uppercasing the answer or the guess does not change the evaluation |
| WordleLaws.ReversedGuess | src/lib/game/wordle.ts:15-54 | "edcba" against "abcde" gives present, present, correct, present, present |
| WordleLaws.RepeatedLetters | src/lib/game/wordle.ts:15-54 | "ababa" against "aabbc" gives correct, present, present, correct, absent: the third a finds no unmatched a |
| WordleLaws.LengthMismatchFails | src/lib/game/wordle.ts:18-22 | a four-letter guess against a five-letter answer fails with expected length 5 |
| TimeFormat.Decimal | src/app/jugar-wordle/page.tsx:37-40 | the decimal rendering is a non-empty digit string without a leading zero, of one digit below 10, two below 100, and at least two from 10 on |
| TimeFormat.DecimalRoundTrip | src/app/jugar-wordle/page.tsx:37-40 | reading the decimal rendering back gives the number |
| TimeFormat.PadTwo | src/app/jugar-wordle/page.tsx:38-40 | padding yields at least two characters, returns strings of two or more characters unchanged, and keeps digit strings digit strings |
| TimeFormat.PadTwoAddsLeadingZeros | src/app/jugar-wordle/page.tsx:38-40 | the padded string ends with the original, and every character before it is '0' |
| TimeFormat.TwoDigits | src/app/jugar-wordle/page.tsx:38-40 | each padded field is a digit string of at least two characters that reads as its number, exactly two below 100, and without a leading zero from 10 on, so only numbers below 10 are padded |
| TimeFormat.PadKeepsValue | src/app/jugar-wordle/page.tsx:38-40 | zero-padding does not change the value a digit string denotes |
| TimeFormat.FormatTime | src/app/jugar-wordle/page.tsx:36-42 | the text is digits, a colon, then exactly two digits; the part before the colon reads as seconds div 60 and the part after it as seconds mod 60; below 6000 seconds it is exactly MM:SS, and from 10 minutes on the minutes carry no leading zero |
| TimeFormat.FormatTimeReadBack | src/app/jugar-wordle/page.tsx:36-42 | the duration is 60 times the value before the colon plus the value after it |
| TimeFormat.FormatTimeInjective | src/app/jugar-wordle/page.tsx:36-42 | different durations are shown as different texts |
| TimeFormat.NinetySeconds | src/app/jugar-wordle/page.tsx:36-42 | 90 seconds is shown as 01:30 |
| Keyboard.MergeKey | src/app/jugar-wordle/page.tsx:127-145 | recording a letter puts its uppercase key on the keyboard at a priority no lower than the new state, holding either the new state or its old one; no key loses priority, and every other key keeps its colour |
| Keyboard.KeysAreUppercase | src/app/jugar-wordle/page.tsx:123-149 | every key coloured by `KeyboardOf` (the whole `keyboardState` computation) is its own uppercase form (uppercasing leaves it unchanged, since it is the uppercase of a guessed letter) and is not an ASCII small letter; Keyboard.KeyboardIsBest states which colour each key holds |
| Keyboard.KeyboardIsBest | src/app/jugar-wordle/page.tsx:124-149 | every guessed letter's uppercase key is coloured at a priority no lower than each of its states; every key's colour is one of its letter's states; a key has a colour exactly when its letter was guessed |
| Keyboard.NeverDowngrades | src/app/jugar-wordle/page.tsx:124-149 | adding a guess keeps every coloured key coloured, at no lower priority |
| GuessBuffer.FirstEmpty | src/app/jugar-wordle/page.tsx:215-218 | the index of the first empty slot, or -1 exactly when no slot is empty |
| GuessBuffer.LastFilled | src/app/jugar-wordle/page.tsx:161-166 | the index of the last non-empty slot, or -1 exactly when every slot is empty |
| GuessBuffer.Backspace | src/app/jugar-wordle/page.tsx:159-170 | backspace keeps the buffer's length, and every slot either stays as it was or was filled and is now empty |
| GuessBuffer.InsertKey | src/app/jugar-wordle/page.tsx:215-222 | typing keeps the buffer's length, and every slot either stays as it was or was empty and now holds the key |
| GuessBuffer.BackspaceClearsLast | src/app/jugar-wordle/page.tsx:159-170 | backspace keeps the length, empties exactly the last non-empty slot and no other, and leaves an all-empty buffer unchanged |
| GuessBuffer.InsertFillsFirstEmpty | src/app/jugar-wordle/page.tsx:215-222 | a typed key fills exactly the first empty slot, and a full buffer is unchanged |
| GuessBuffer.PackedPreserved | src/app/jugar-wordle/page.tsx:159-222 | typing and backspace keep all filled slots before all empty ones |
| GuessBuffer.BackspaceUndoesInsert | src/app/jugar-wordle/page.tsx:159-222 | in such a buffer with room left, backspace undoes typing a key |
| GamePage.Concat | src/app/jugar-wordle/page.tsx:173 | when every slot holds one character, the joined text has one character per slot, slot by slot |
| GamePage.EmptySlots | src/app/jugar-wordle/page.tsx:187 | the fresh buffer has the given number of slots, its first empty slot is slot 0 (none when it has no slots), no slot is filled, and it is packed |
| GamePage.Enter | src/app/jugar-wordle/page.tsx:172-202 | Enter never changes the target, word length, loading or already-played flags; the attempt index stays or grows by one; when it stays, only the feedback changes; a finished game has just used an attempt, and a lost one has used six |
| GamePage.HandleKey | src/app/jugar-wordle/page.tsx:151-226 | a key press never changes the target, word length, loading or already-played flags; it changes nothing when the page does not accept keys; only Enter advances the attempt index, by one; the status changes only together with that advance |
| GamePage.StoreAt | src/app/jugar-wordle/page.tsx:181-182 | the guess is stored at the index, overwriting inside the list or appending at its end, and the other entries are kept |
| GamePageLaws.InactiveIgnoresKeys | src/app/jugar-wordle/page.tsx:153-155 | without a target word, outside play, while loading, or after today's game was played, a key changes nothing |
| GamePageLaws.FinishedIsFinal | src/app/jugar-wordle/page.tsx:153-155 | a won or lost game stays unchanged under any key sequence |
| GamePageLaws.BackspaceKey | src/app/jugar-wordle/page.tsx:159-170 | backspace clears the last filled slot, clears the feedback, and leaves guesses, attempt index and status alone |
| GamePageLaws.LetterKey | src/app/jugar-wordle/page.tsx:206-222 | any other key changes the buffer only if it is A-Z or Ñ after uppercasing, is not coloured absent, and the buffer has an empty slot; it then fills the first empty slot, clears the feedback and changes nothing else; a refused key leaves the page exactly as it was |
| GamePageLaws.EnterIncomplete | src/app/jugar-wordle/page.tsx:172-177 | Enter with an empty slot changes only the feedback, to the word-length notice |
| GamePageLaws.EnterEvaluationFails | src/app/jugar-wordle/page.tsx:179-201 | a complete guess of the expected length that differs in length from the target makes the evaluation throw; only the feedback changes, to the evaluation-error notice |
| GamePageLaws.EnterComplete | src/app/jugar-wordle/page.tsx:180-198 | a complete guess is stored evaluated at the attempt index, which grows by one, and the buffer is reset; the game is won exactly on all-correct, lost exactly when otherwise six attempts are used, and continues otherwise; the feedback is then the congratulation, the notice with the uppercased answer, or cleared |
| GamePageLaws.GuessingTargetWins | src/app/jugar-wordle/page.tsx:173-192 | entering the target word, in any case, wins the game |
| GamePageLaws.Fresh | src/app/jugar-wordle/page.tsx:77-117 | a game just loaded, with the target word and the announced word length taken as separate values, is in play with no attempts and no feedback, and satisfies the page invariant |
| GamePageLaws.KeyKeepsValid | src/app/jugar-wordle/page.tsx:151-226 | every key press keeps the invariant: guesses match the attempt index, at most six attempts, play only below six, a packed buffer of word length with one-character slots, one state per guessed letter |
| GamePageLaws.KeysKeepValid | src/app/jugar-wordle/page.tsx:151-226 | any key sequence keeps the invariant, so a game never records more than six attempts |
| SeedWords.TrimStart | scripts/seed-words.ts:15 | the result is a suffix, everything dropped is white space, and it does not start with white space |
| SeedWords.TrimEnd | scripts/seed-words.ts:15 | the result is a prefix, everything dropped is white space, and it does not end with white space |
| SeedWords.Trim | scripts/seed-words.ts:15 | the result is a contiguous run of the line with only white space around it, and it neither starts nor ends with white space |
| SeedWords.Normalize | scripts/seed-words.ts:15 | the normalised line is as long as the trimmed line and has no ASCII capital |
| SeedWords.NormalizeAll | scripts/seed-words.ts:15 | one normalised word per line, none holding an ASCII capital |
| SeedWords.CandidatesAreFilteredLines | scripts/seed-words.ts:13-16 | a word is a candidate exactly when it passes the filter and some line normalises to it |
| SeedWords.Filtered | scripts/seed-words.ts:11-18 | the filtered list has no repeats, holds exactly the candidate words, and each of them has five characters a-z |
| SeedWords.Dedupe | scripts/seed-words.ts:11-18 | deduplication keeps exactly the words of the input and never lengthens it |
| SeedWords.DedupeKeepsFirstOccurrences | scripts/seed-words.ts:11-18 | the deduplicated list has no repeats and lists words in the order of their first occurrence |
| SeedWords.DedupeOfDistinct | scripts/seed-words.ts:11-18 | a list without repeats is unchanged by deduplication |
| SeedWords.SelectWords | scripts/seed-words.ts:20-26 | the run fails exactly when fewer than 600 distinct valid words remain, reporting how many; otherwise it selects exactly the first 600 |
| SeedWords.SelectionIsValid | scripts/seed-words.ts:11-26 | the selected words are distinct candidates, each the normalised form of some line, in first-occurrence order |
| SeedWords.SpanishLettersDropped | scripts/seed-words.ts:16 | a word containing ñ or an accented vowel is never a candidate |
| SeedWords.Records | scripts/seed-words.ts:29 | one record per selected word, in order: record i holds word i as its text, and its length field is the text's length |
| SeedWords.RecordsReadBack | scripts/seed-words.ts:29 | reading the text column back from the records gives exactly the selected words, in order |
| SeedWords.RecordsHaveWordLength | scripts/seed-words.ts:26-30 | each written record's length equals its text's length, which is 5 |
| ResultStore.Post | src/app/api/wordle/result/route.ts:16-103 | a submission never changes the day table, changes the store only when it records, never alters or drops an existing result, and records only attempts in 1..6 and seconds at least 0 |
| ResultStore.UnauthenticatedRefused | src/app/api/wordle/result/route.ts:18-21 | without a session the answer is 401 and the store is unchanged, whatever the body |
| ResultStore.ValidationCascade | src/app/api/wordle/result/route.ts:23-57 | a logged-in request gets 400 exactly when the payload is unacceptable or today has no word; the reason is the first failing check (missing or falsy body, wrong field types, attempts outside 1..6, negative seconds, no day) |
| ResultStore.RecordingAddsOneEntry | src/app/api/wordle/result/route.ts:61-95 | the store changes only when a result is recorded, which happens exactly for a valid request with no result yet for (user, day); then exactly that entry is added with the submitted values, and they are echoed |
| ResultStore.DuplicateConflicts | src/app/api/wordle/result/route.ts:61-75 | an existing result for (user, day) gives 409 and leaves the store unchanged |
| ResultStore.AtMostOncePerDay | src/app/api/wordle/result/route.ts:61-85 | after a recorded result, no further submission by that user on that day is recorded |
| ResultStore.PostPreservesStore | src/app/api/wordle/result/route.ts:50-85 | every stored result keeps attempts in 1..6 and seconds at least 0 under a known day, and existing results are never altered or dropped |
| ResultStore.ExampleSubmission | src/app/api/wordle/result/route.ts:77-95 | a first submission of 3 attempts, 42 seconds, solved, is recorded and echoed |
| Sequences.Filter | src/app/dashboard/page.tsx:152 | the filter result is no longer than the input and holds exactly the input's elements that pass |
| Sequences.FilterKeepsOrderAndCount | src/app/dashboard/page.tsx:152 | the filter result is a subsequence of the input, holding each passing element with its multiplicity and nothing else |
| Sequences.FilterKeepsDistinct | src/app/dashboard/page.tsx:158 | filtering a list without repeats leaves a list without repeats |
| Dashboard.ToggleSelectedMember | src/app/dashboard/page.tsx:155-160 | after the toggle the id is selected exactly when it was not before, and every other id is selected exactly when it was |
| Dashboard.ToggleAppendsNew | src/app/dashboard/page.tsx:155-160 | toggling an unselected id appends it at the end, and toggling it again restores the list |
| Dashboard.ToggleRemovesSelected | src/app/dashboard/page.tsx:155-160 | toggling a selected id removes every copy of it and keeps the other ids with their multiplicity and relative order |
| Dashboard.ToggleKeepsDistinct | src/app/dashboard/page.tsx:155-160 | a list without repeats stays without repeats, and its set of ids changes by exactly the toggled id |
| Dashboard.AssignableUsers | src/app/dashboard/page.tsx:148-153 | the assignable users are loaded users, no more of them than were loaded, none before the session is known and never the current user |
| Dashboard.AssignableExcludesCurrent | src/app/dashboard/page.tsx:148-153 | with no current user nobody is assignable; otherwise exactly the other users, in loaded order |
| Dashboard.ExtraMembers | src/app/dashboard/page.tsx:212-215 | the summary's members are members of the group, no more of them, and never the current user |
| Dashboard.ExtraMembersExcludeCurrent | src/app/dashboard/page.tsx:212-215 | the summary keeps every member except the current user, in order, and keeps all of them when there is no current user |

## Left out

- CaseFold.Lower: this is a per-character table of ASCII letters plus Ñ, Á, É, Í, Ó, Ú and Ü. It is not full Unicode case mapping, which can change a string's length (for example, "ß" uppercases to "SS"). JavaScript also works on UTF-16 code units, which the model does not represent. JavaScript lowercases U+212A KELVIN SIGN to "k"; here it stays unchanged, so "nothing else lands in a-z" holds of the table, not of `toLowerCase`.
- CaseFold.Upper: JavaScript uppercases U+017F LATIN SMALL LETTER LONG S ("ſ") to "S" and U+0131 LATIN SMALL LETTER DOTLESS I ("ı") to "I"; here both stay unchanged, so "nothing else lands in A-Z" holds of the table, not of `toUpperCase`.
- Keyboard.KeysAreUppercase: "uppercase" means uppercase by the model's table. A guessed letter outside it, such as "ç", stays a small letter as a key, where `toUpperCase` would give "Ç". The page only stores guesses typed as A-Z or Ñ, so this does not arise in play.
- CaseFold.LowerStrOfUpperStr: holds of the table only. In JavaScript "ſ" uppercases to "S", which lowercases to "s", while "ſ" itself lowercases to "ſ"; the same goes for "ı" and "i".
- WordleLaws.CaseInsensitive: holds of the table only. With JavaScript's case mapping, `evaluateGuess("s", "ſ")` gives absent, but with the guess uppercased it gives correct.
- SeedWords.Normalize: follows the table, so a line such as "\u212Aiosk" (KELVIN SIGN first), which the script lowercases to "kiosk" and keeps, is dropped here.
- GamePage.HandleKey: a key that JavaScript uppercases into A-Z from outside the table, such as "ı" or "ſ", fills a slot in the source but is ignored here.
- TimeFormat.FormatTime: it takes a natural number. The source is only called with non-negative whole seconds. JavaScript's exponent notation for numbers of 10^21 and above is not modelled.
- GamePage.StoreAt: an index more than one past the end would leave holes in a JavaScript array. Here it appends. The page invariant rules that case out.
- ResultStore.Post: a request runs as one atomic step, so requests are modelled as sequential. In the source, the lookup of an existing result (src/app/api/wordle/result/route.ts:61-75) and the insert (route.ts:77-85) are separate awaits. Two concurrent submissions for the same (user, day) can both find no result. The second insert is then stopped only by the table's unique `userId_wordleDayId` key, and that request gets the 500 path, not a 409. So under such a race, the once-per-day guarantee of `ResultStore.DuplicateConflicts` and `ResultStore.AtMostOncePerDay` comes from the database key, not from the 409 check.
- ResultStore.Post: non-finite numbers are not modelled. `request.json()` turns a literal such as `1e400` into `Infinity`. The body `{"attempts":3,"seconds":1e400,"solved":true}` passes every check of route.ts:34-48 and reaches the insert, whose outcome depends on the database column type, which is not part of this model. `Post` and `ResultStore.ValidationCascade` say nothing about such a body. An `attempts` of `±Infinity` or a `seconds` of `-Infinity` would be refused by those checks, as for any out-of-range number.
- The session lookup (`getCurrentUser`) becomes the `user` argument of `Post`.
- The clock becomes the `today` argument of `Post`. The three `getTodayKey` functions are not part of this model.
- The ORM becomes the `Store` maps.
- The endpoint's 500 path (a database failure) is not modelled.
- The `createdAt` timestamp in the response is not modelled.
- The database column types are not modelled. In particular, the model does not decide what happens to a fractional `attempts` value that passes validation.
- The seed script's file reading and the splitting on `\r?\n` are not modelled; the input is the list of lines. A trailing `\r` on a line is removed by the trim anyway.
- The `createMany` call and its `skipDuplicates` are not modelled.
- Daily and random word selection (`Math.random`, database counts) are not part of this model.
- The game page's data loading (`fetch` of the daily word, the `alreadyPlayed` path) is not modelled. Its result is the page state that `HandleKey` starts from; `GamePageLaws.Fresh` is the state after a successful load.
- The one-second timer is not modelled.
- The posting of the finished game's result is not modelled.
- The `keydown` listener's pre-filter is not modelled. `HandleKey` takes any key string.
- The feedback texts are modelled as the `Notice` values, not as Spanish strings.
- Rendering is not modelled: the board, key colours and disabled buttons, and the dashboard's member-summary display names.
- Authentication and logout are not part of this model.
- User and group creation is not part of this model, including password hashing and join-code generation.
- The debug and deployment scripts are not part of this model.

=== FILE: accounts.dfy ===
/** The signed-in user as the session endpoint describes it. */
module Accounts {
  import opened Optional

  type UserId = string

  datatype Role = UserRole | Admin

  datatype User = User(id: UserId, name: Option<string>, email: Option<string>, role: Role)
}

=== FILE: case_fold.dfy ===
/** Per-character case mapping used by `toLowerCase` / `toUpperCase` in the
    game. The model covers ASCII letters and the Spanish letters the game's
    keyboard and word list can contain; every other character is left as is.
    Unlike full Unicode case mapping, both directions preserve length, and
    characters outside that table, such as U+017F LATIN SMALL LETTER LONG S,
    U+0131 LATIN SMALL LETTER DOTLESS I or U+212A KELVIN SIGN, which
    JavaScript maps into A-Z or a-z, are left unchanged. */
module CaseFold {

  /** The Spanish letters the table folds, in each case. */
  const SpanishUpper: set<char> := {'Ñ', 'Á', 'É', 'Í', 'Ó', 'Ú', 'Ü'}
  const SpanishLower: set<char> := {'ñ', 'á', 'é', 'í', 'ó', 'ú', 'ü'}

  /** Each Spanish capital with its small form. */
  const SpanishPairs: seq<(char, char)> :=
    [('Ñ', 'ñ'), ('Á', 'á'), ('É', 'é'), ('Í', 'í'), ('Ó', 'ó'), ('Ú', 'ú'), ('Ü', 'ü')]

  /** Whenever c is one of the pairs' capitals, r is its own small form. */
  predicate LowersPair(c: char, r: char)
  {
    forall k | 0 <= k < |SpanishPairs| :: c == SpanishPairs[k].0 ==> r == SpanishPairs[k].1
  }

  /** Whenever c is one of the pairs' small letters, r is its own capital. */
  predicate UppersPair(c: char, r: char)
  {
    forall k | 0 <= k < |SpanishPairs| :: c == SpanishPairs[k].1 ==> r == SpanishPairs[k].0
  }

  predicate IsAsciiUpper(c: char) { 'A' <= c <= 'Z' }

  predicate IsAsciiLower(c: char) { 'a' <= c <= 'z' }

  function Lower(c: char): (r: char)
    ensures IsAsciiLower(r) <==> IsAsciiLower(c) || IsAsciiUpper(c)
    ensures !IsAsciiUpper(r)
    ensures IsAsciiUpper(c) ==> r as int == c as int + 32
    ensures c in SpanishUpper ==> r in SpanishLower
    ensures LowersPair(c, r)
    ensures !IsAsciiUpper(c) && c !in SpanishUpper ==> r == c
  {
    if IsAsciiUpper(c) then (c as int + 32) as char
    else if c == 'Ñ' then 'ñ'
    else if c == 'Á' then 'á'
    else if c == 'É' then 'é'
    else if c == 'Í' then 'í'
    else if c == 'Ó' then 'ó'
    else if c == 'Ú' then 'ú'
    else if c == 'Ü' then 'ü'
    else c
  }

  function Upper(c: char): (r: char)
    ensures IsAsciiUpper(r) <==> IsAsciiUpper(c) || IsAsciiLower(c)
    ensures !IsAsciiLower(r)
    ensures IsAsciiLower(c) ==> r as int == c as int - 32
    ensures c in SpanishLower ==> r in SpanishUpper
    ensures UppersPair(c, r)
    ensures !IsAsciiLower(c) && c !in SpanishLower ==> r == c
  {
    if IsAsciiLower(c) then (c as int - 32) as char
    else if c == 'ñ' then 'Ñ'
    else if c == 'á' then 'Á'
    else if c == 'é' then 'É'
    else if c == 'í' then 'Í'
    else if c == 'ó' then 'Ó'
    else if c == 'ú' then 'Ú'
    else if c == 'ü' then 'Ü'
    else c
  }

  /** `toLowerCase` on a string: same length, no ASCII capital left. */
  function LowerStr(s: string): (r: string)
    ensures |r| == |s|
    ensures forall i | 0 <= i < |r| :: !IsAsciiUpper(r[i])
  {
    seq(|s|, i requires 0 <= i < |s| => Lower(s[i]))
  }

  /** `toUpperCase` on a string: same length, no ASCII small letter left. */
  function UpperStr(s: string): (r: string)
    ensures |r| == |s|
    ensures forall i | 0 <= i < |r| :: !IsAsciiLower(r[i])
  {
    seq(|s|, i requires 0 <= i < |s| => Upper(s[i]))
  }

  /** Lowercasing forgets any earlier uppercasing, so comparisons made after
      `toLowerCase` cannot see the case of their inputs. */
  lemma LowerOfUpper(c: char)
    ensures Lower(Upper(c)) == Lower(c)
  {
  }

  lemma LowerStrOfUpperStr(s: string)
    ensures LowerStr(UpperStr(s)) == LowerStr(s)
  {
    forall i | 0 <= i < |s|
      ensures LowerStr(UpperStr(s))[i] == LowerStr(s)[i]
    {
      LowerOfUpper(s[i]);
    }
  }

  /** Uppercasing twice is uppercasing once. */
  lemma UpperIdempotent(c: char)
    ensures Upper(Upper(c)) == Upper(c)
  {
  }

  /** Lowercasing twice is lowercasing once. */
  lemma LowerStrIdempotent(s: string)
    ensures LowerStr(LowerStr(s)) == LowerStr(s)
  {
  }
}

=== FILE: dashboard.dfy ===
/** Member selection on the dashboard's group form. */
module Dashboard {
  import opened Optional
  import opened Accounts
  import opened Sequences

  /** A member of a newly created group, as the group endpoint returns it. */
  datatype Profile = Profile(name: Option<string>, email: Option<string>)
  datatype Member = Member(userId: UserId, user: Option<Profile>)

  /** `toggleSelectedMember`: a selected id is deselected (every copy of it
      removed), an unselected one is appended. */
  function ToggleSelectedMember(ids: seq<UserId>, id: UserId): (r: seq<UserId>)
    ensures id in r <==> id !in ids
    ensures forall other | other != id :: other in r <==> other in ids
  {
    if id in ids then Filter(ids, other => other != id) else ids + [id]
  }

  /** Toggling an unselected id appends it at the end. */
  lemma ToggleAppendsNew(ids: seq<UserId>, id: UserId)
    requires id !in ids
    ensures ToggleSelectedMember(ids, id) == ids + [id]
    ensures ToggleSelectedMember(ToggleSelectedMember(ids, id), id) == ids
  {
    FilterKeepsOrderAndCount(ids + [id], other => other != id);
    FilterOfUntouched(ids, other => other != id);
    assert (ids + [id])[..|ids|] == ids;
  }

  /** Toggling a selected id removes every copy of it, keeps every other id
      with its multiplicity and relative order. */
  lemma ToggleRemovesSelected(ids: seq<UserId>, id: UserId)
    requires id in ids
    ensures var r := ToggleSelectedMember(ids, id);
      && id !in r
      && IsSubsequence(r, ids)
      && forall other | other != id :: multiset(r)[other] == multiset(ids)[other]
  {
    var keep := (other: UserId) => other != id;
    FilterKeepsOrderAndCount(ids, keep);
    var r := ToggleSelectedMember(ids, id);
    assert multiset(r)[id] == 0;
  }

  /** A selection without repeats stays without repeats, and its set of ids
      changes by exactly the toggled one. */
  lemma ToggleKeepsDistinct(ids: seq<UserId>, id: UserId)
    requires NoDuplicates(ids)
    ensures NoDuplicates(ToggleSelectedMember(ids, id))
    ensures var r := ToggleSelectedMember(ids, id);
      forall other :: other in r <==> (other in ids <==> other != id)
  {
    var keep := (other: UserId) => other != id;
    var r := ToggleSelectedMember(ids, id);
    if id in ids {
      FilterKeepsOrderAndCount(ids, keep);
      FilterKeepsDistinct(ids, keep);
      forall other
        ensures other in r <==> (other in ids <==> other != id)
      {
        assert other in r <==> multiset(r)[other] > 0;
        assert other in ids <==> multiset(ids)[other] > 0;
      }
    }
  }

  /** `assignableUsers`: the loaded users other than the current one; none
      before the session is known. */
  function AssignableUsers(available: seq<User>, current: Option<User>): (r: seq<User>)
    ensures |r| <= |available|
    ensures forall u | u in r :: u in available && current.Some? && u.id != current.value.id
  {
    if current.None? then [] else Filter(available, (u: User) => u.id != current.value.id)
  }

  /** `extraMembers`: the new group's members other than the current user.
      Without a current user the comparison is with `undefined`, which no id
      equals, so every member is kept. */
  function ExtraMembers(members: seq<Member>, current: Option<User>): (r: seq<Member>)
    ensures |r| <= |members|
    ensures forall m | m in r :: m in members && (current.Some? ==> m.userId != current.value.id)
  {
    Filter(members, (m: Member) => current.None? || m.userId != current.value.id)
  }

  /** No one can be assigned before the session is known; afterwards the
      choice is every other user, in the loaded order, with the current user
      left out. */
  lemma AssignableExcludesCurrent(available: seq<User>, current: Option<User>)
    ensures current.None? ==> AssignableUsers(available, current) == []
    ensures current.Some? ==>
      var r := AssignableUsers(available, current);
      && IsSubsequence(r, available)
      && (forall u :: multiset(r)[u] == if u.id != current.value.id then multiset(available)[u] else 0)
      && (forall u | u in r :: u.id != current.value.id)
  {
    if current.Some? {
      var keep := (u: User) => u.id != current.value.id;
      FilterKeepsOrderAndCount(available, keep);
      var r := AssignableUsers(available, current);
      forall u | u in r
        ensures u.id != current.value.id
      {
        assert multiset(r)[u] > 0;
      }
    }
  }

  /** The member summary lists every member except the current user, in order. */
  lemma ExtraMembersExcludeCurrent(members: seq<Member>, current: Option<User>)
    ensures var r := ExtraMembers(members, current);
      && IsSubsequence(r, members)
      && (current.None? ==> r == members)
      && (current.Some? ==> forall m ::
            multiset(r)[m] == if m.userId != current.value.id then multiset(members)[m] else 0)
  {
    var keep := (m: Member) => current.None? || m.userId != current.value.id;
    FilterKeepsOrderAndCount(members, keep);
    if current.None? {
      FilterOfUntouched(members, keep);
    }
  }
}

=== FILE: game_page.dfy ===
/** The game page's key handling as a pure transition on the page state:
    backspace, letter keys and Enter, with the won/lost transitions. */
module GamePage {
  import opened CaseFold
  import opened Optional
  import opened Wordle
  import opened Keyboard
  import opened GuessBuffer

  const MaxAttempts: nat := 6

  datatype Status = Playing | Won | Lost

  /** The feedback line shown above the board. */
  datatype Notice =
    | WrongLength(wordLength: nat)
    | Congratulations
    | OutOfAttempts(answer: string)
    | EvaluationFailed

  datatype Page = Page(
    target: Option<string>,
    wordLength: nat,
    guesses: seq<GuessResult>,
    current: Slots,
    attemptIndex: nat,
    status: Status,
    loading: bool,
    alreadyPlayed: bool,
    feedback: Option<Notice>)

  /** Keys have an effect only while a (non-empty) target word is loaded, the
      game is in progress and today's game was not already played. */
  predicate Accepting(p: Page)
  {
    p.target.Some? && p.target.value != "" && p.status == Playing && !p.loading && !p.alreadyPlayed
  }

  /** The `^[A-ZÑ]$` test on the uppercased key. */
  predicate IsLetterKey(key: string)
  {
    |key| == 1 && (IsAsciiUpper(key[0]) || key[0] == 'Ñ')
  }

  predicate AllCorrect(states: seq<LetterState>)
  {
    forall i | 0 <= i < |states| :: states[i] == Correct
  }

  /** `join("")` of the buffer. */
  function Concat(slots: Slots): (r: string)
    ensures (forall j | 0 <= j < |slots| :: |slots[j]| == 1) ==>
      |r| == |slots| && forall j | 0 <= j < |slots| :: r[j] == slots[j][0]
  {
    if slots == [] then "" else Concat(slots[..|slots| - 1]) + slots[|slots| - 1]
  }

  /** Array assignment at an index: overwrites inside the array, appends at
      its end. (An index past the end, which would leave holes in the array,
      also appends; the page never produces one.) */
  function StoreAt(gs: seq<GuessResult>, i: nat, g: GuessResult): (r: seq<GuessResult>)
    ensures |r| == if i < |gs| then |gs| else |gs| + 1
    ensures i <= |gs| ==> r[i] == g
    ensures forall j | 0 <= j < |gs| && j != i :: r[j] == gs[j]
  {
    if i < |gs| then gs[i := g] else gs + [g]
  }

  /** The fresh buffer after a submission: nothing typed, room for n keys. */
  function EmptySlots(n: nat): (r: Slots)
    ensures |r| == n
    ensures FirstEmpty(r) == if n == 0 then -1 else 0
    ensures LastFilled(r) == -1
    ensures Packed(r)
  {
    seq(n, _ => "")
  }

  /** The Enter key on a page that accepts keys. */
  function Enter(p: Page): (r: Page)
    requires Accepting(p)
    ensures r.target == p.target && r.wordLength == p.wordLength
    ensures r.loading == p.loading && r.alreadyPlayed == p.alreadyPlayed
    ensures r.attemptIndex == p.attemptIndex || r.attemptIndex == p.attemptIndex + 1
    ensures r.attemptIndex == p.attemptIndex ==> r == p.(feedback := r.feedback)
    ensures r.status != Playing ==> r.attemptIndex == p.attemptIndex + 1
    ensures r.status == Lost ==> r.attemptIndex >= MaxAttempts
  {
    var guessWord := LowerStr(Concat(p.current));
    if |guessWord| != p.wordLength || "" in p.current then
      p.(feedback := Some(WrongLength(p.wordLength)))
    else
      match Evaluate(p.target.value, guessWord)
      case LengthMismatch(_) => p.(feedback := Some(EvaluationFailed))
      case Evaluated(states) =>
        var next := p.attemptIndex + 1;
        var stored := StoreAt(p.guesses, p.attemptIndex, GuessResult(guessWord, states));
        var q := p.(guesses := stored, attemptIndex := next,
                    current := EmptySlots(p.wordLength), feedback := None);
        if AllCorrect(states) then q.(status := Won, feedback := Some(Congratulations))
        else if next >= MaxAttempts then
          q.(status := Lost, feedback := Some(OutOfAttempts(UpperStr(p.target.value))))
        else q
  }

  /** `handleKeyInput`: the page after one key press. */
  function HandleKey(p: Page, rawKey: string): (r: Page)
    ensures r.target == p.target && r.wordLength == p.wordLength
    ensures r.loading == p.loading && r.alreadyPlayed == p.alreadyPlayed
    ensures !Accepting(p) ==> r == p
    ensures r.attemptIndex == p.attemptIndex
      || (r.attemptIndex == p.attemptIndex + 1 && UpperStr(rawKey) == "ENTER")
    ensures r.status != p.status ==> r.attemptIndex == p.attemptIndex + 1
  {
    if !Accepting(p) then p
    else
      var key := UpperStr(rawKey);
      if key == "BACKSPACE" || key == "⌫" then
        p.(current := Backspace(p.current), feedback := None)
      else if key == "ENTER" then Enter(p)
      else if !IsLetterKey(key) then p
      else if key[0] in KeyboardOf(p.guesses) && KeyboardOf(p.guesses)[key[0]] == Absent then p
      else if FirstEmpty(p.current) == -1 then p
      else p.(current := InsertKey(p.current, key), feedback := None)
  }

  /** The page after a sequence of key presses. */
  function HandleKeys(p: Page, keys: seq<string>): Page
    decreases |keys|
  {
    if keys == [] then p else HandleKeys(HandleKey(p, keys[0]), keys[1..])
  }
}

=== FILE: game_page_laws.dfy ===
/** What a key press does to the game page, and the invariant every reachable
    page keeps. */
module GamePageLaws {
  import opened CaseFold
  import opened Optional
  import opened Wordle
  import opened Keyboard
  import opened GuessBuffer
  import opened GamePage
  import WordleLaws

  predicate IsBackspace(rawKey: string)
  {
    UpperStr(rawKey) == "BACKSPACE" || UpperStr(rawKey) == "⌫"
  }

  predicate IsEnter(rawKey: string)
  {
    UpperStr(rawKey) == "ENTER"
  }

  /** Nothing happens unless a target word is loaded, the game is in progress
      and today's game was not already played. */
  lemma InactiveIgnoresKeys(p: Page, rawKey: string)
    requires !Accepting(p)
    ensures HandleKey(p, rawKey) == p
  {
  }

  /** A finished game stays finished and unchanged, whatever keys follow. */
  lemma {:induction false} FinishedIsFinal(p: Page, keys: seq<string>)
    requires p.status != Playing
    ensures HandleKeys(p, keys) == p
    decreases |keys|
  {
    if keys != [] {
      FinishedIsFinal(HandleKey(p, keys[0]), keys[1..]);
    }
  }

  /** Backspace clears the last filled slot of the buffer and nothing else. */
  lemma BackspaceKey(p: Page, rawKey: string)
    requires Accepting(p) && IsBackspace(rawKey)
    ensures var r := HandleKey(p, rawKey);
      && |r.current| == |p.current|
      && (forall i | 0 <= i < |p.current| && p.current[i] != "" && (forall j | i < j < |p.current| :: p.current[j] == "") ::
            r.current == p.current[i := ""])
      && ((forall j | 0 <= j < |p.current| :: p.current[j] == "") ==> r.current == p.current)
      && r.guesses == p.guesses && r.attemptIndex == p.attemptIndex && r.status == p.status
      && r.feedback == None
  {
    BackspaceClearsLast(p.current);
  }

  /** A letter key changes the buffer only if it is one of A-Z or Ñ (after
      uppercasing), its key is not coloured absent and the buffer has an empty
      slot; it then fills the first empty slot and clears the feedback. A
      refused key leaves the page as it was. */
  lemma LetterKey(p: Page, rawKey: string)
    requires Accepting(p) && !IsBackspace(rawKey) && !IsEnter(rawKey)
    ensures var r := HandleKey(p, rawKey); var key := UpperStr(rawKey);
      && r.guesses == p.guesses && r.attemptIndex == p.attemptIndex && r.status == p.status
      && (r.current == p.current ==> r == p)
      && (r.current != p.current ==> r == p.(current := r.current, feedback := None))
      && (r.current != p.current ==>
            IsLetterKey(key)
            && !(key[0] in KeyboardOf(p.guesses) && KeyboardOf(p.guesses)[key[0]] == Absent)
            && (exists j | 0 <= j < |p.current| :: p.current[j] == ""))
      && (forall i | 0 <= i < |p.current| && p.current[i] == "" && (forall j | 0 <= j < i :: p.current[j] != "") ::
            IsLetterKey(key) && !(key[0] in KeyboardOf(p.guesses) && KeyboardOf(p.guesses)[key[0]] == Absent)
            ==> r.current == p.current[i := key])
  {
    InsertFillsFirstEmpty(p.current, UpperStr(rawKey));
  }

  /** Enter with an empty slot is refused: only the feedback changes. */
  lemma EnterIncomplete(p: Page, rawKey: string)
    requires Accepting(p) && IsEnter(rawKey)
    requires "" in p.current
    ensures HandleKey(p, rawKey) == p.(feedback := Some(WrongLength(p.wordLength)))
  {
  }

  /** A complete guess of the expected word length that differs in length
      from the target makes the evaluation fail: the error notice is shown and
      nothing else changes. The word length comes from its own field of the
      daily word, so it need not equal the target's length. */
  lemma EnterEvaluationFails(p: Page, rawKey: string)
    requires Accepting(p) && IsEnter(rawKey)
    requires "" !in p.current
    requires |Concat(p.current)| == p.wordLength != |p.target.value|
    ensures HandleKey(p, rawKey) == p.(feedback := Some(EvaluationFailed))
  {
  }

  /** A complete guess whose evaluation succeeds is stored at the attempt
      index, the attempt index advances by one, the buffer is reset, and the
      game is won on an all-correct evaluation, lost once six attempts are
      used, and continues otherwise; the feedback then congratulates, shows
      the uppercased answer, or is cleared. */
  lemma EnterComplete(p: Page, rawKey: string)
    requires Accepting(p) && IsEnter(rawKey)
    requires "" !in p.current
    requires |Concat(p.current)| == p.wordLength == |p.target.value|
    requires p.attemptIndex <= |p.guesses|
    ensures var r := HandleKey(p, rawKey); var word := LowerStr(Concat(p.current));
      var states := Evaluate(p.target.value, word).states;
      && r.guesses[p.attemptIndex] == GuessResult(word, states)
      && (forall j | 0 <= j < |p.guesses| && j != p.attemptIndex :: r.guesses[j] == p.guesses[j])
      && r.attemptIndex == p.attemptIndex + 1
      && r.current == EmptySlots(p.wordLength)
      && (r.status == Won <==> AllCorrect(states))
      && (r.status == Lost <==> !AllCorrect(states) && p.attemptIndex + 1 >= MaxAttempts)
      && (r.status == Playing <==> !AllCorrect(states) && p.attemptIndex + 1 < MaxAttempts)
      && (r.status == Won ==> r.feedback == Some(Congratulations))
      && (r.status == Lost ==> r.feedback == Some(OutOfAttempts(UpperStr(p.target.value))))
      && (r.status == Playing ==> r.feedback == None)
  {
  }

  /** Guessing the target word, in any case, wins. */
  lemma GuessingTargetWins(p: Page, rawKey: string)
    requires Accepting(p) && IsEnter(rawKey)
    requires "" !in p.current
    requires LowerStr(Concat(p.current)) == LowerStr(p.target.value)
    requires |Concat(p.current)| == p.wordLength
    ensures HandleKey(p, rawKey).status == Won
  {
    var word := LowerStr(Concat(p.current));
    LowerStrIdempotent(Concat(p.current));
    WordleLaws.SameWordAllCorrect(p.target.value, word);
  }


  /** The invariant of every page the game reaches. */
  predicate Valid(p: Page)
  {
    && |p.guesses| == p.attemptIndex <= MaxAttempts
    && (p.status == Playing ==> p.attemptIndex < MaxAttempts)
    && |p.current| == p.wordLength
    && Packed(p.current)
    && (forall j | 0 <= j < |p.current| :: p.current[j] == "" || |p.current[j]| == 1)
    && (forall i | 0 <= i < |p.guesses| :: |p.guesses[i].states| == |p.guesses[i].guess|)
  }

  /** A fresh game: no guesses, an empty buffer of the announced word
      length. The length and the word arrive as separate fields of the daily
      word, so they need not agree. */
  function Fresh(target: string, length: nat): (p: Page)
    ensures Valid(p) && p.status == Playing && p.attemptIndex == 0
    ensures p.target == Some(target) && p.wordLength == length && p.feedback == None
  {
    Page(Some(target), length, [], EmptySlots(length), 0, Playing, false, false, None)
  }

  lemma KeyKeepsValid(p: Page, rawKey: string)
    requires Valid(p)
    ensures Valid(HandleKey(p, rawKey))
  {
    if Accepting(p) {
      var key := UpperStr(rawKey);
      if IsBackspace(rawKey) {
        PackedPreserved(p.current, "x");
        BackspaceClearsLast(p.current);
      } else if IsEnter(rawKey) {
      } else if IsLetterKey(key) {
        PackedPreserved(p.current, key);
        InsertFillsFirstEmpty(p.current, key);
      }
    }
  }

  /** Any sequence of keys keeps the invariant; in particular a game never
      records more than six attempts. */
  lemma {:induction false} KeysKeepValid(p: Page, keys: seq<string>)
    requires Valid(p)
    ensures Valid(HandleKeys(p, keys))
    ensures HandleKeys(p, keys).attemptIndex <= MaxAttempts
    decreases |keys|
  {
    if keys != [] {
      KeyKeepsValid(p, keys[0]);
      KeysKeepValid(HandleKey(p, keys[0]), keys[1..]);
    }
  }
}

=== FILE: guess_buffer.dfy ===
/** The current-guess buffer of the game page: one slot per letter of the
    word, each empty ("") or holding a typed key. */
module GuessBuffer {

  type Slots = seq<string>

  /** `findIndex(letter => letter === "")`: the first empty slot, or -1. */
  function FirstEmpty(cur: Slots): (r: int)
    ensures -1 <= r < |cur|
    ensures r == -1 <==> forall j | 0 <= j < |cur| :: cur[j] != ""
    ensures r >= 0 ==> cur[r] == "" && forall j | 0 <= j < r :: cur[j] != ""
  {
    if cur == [] then -1
    else if cur[0] == "" then 0
    else
      var rest := FirstEmpty(cur[1..]);
      if rest == -1 then -1 else rest + 1
  }

  /** The backspace loop's target: the last non-empty slot, or -1. */
  function LastFilled(cur: Slots): (r: int)
    ensures -1 <= r < |cur|
    ensures r == -1 <==> forall j | 0 <= j < |cur| :: cur[j] == ""
    ensures r >= 0 ==> cur[r] != "" && forall j | r < j < |cur| :: cur[j] == ""
  {
    if cur == [] then -1
    else if cur[|cur| - 1] != "" then |cur| - 1
    else LastFilled(cur[..|cur| - 1])
  }

  /** Filled slots all come before empty ones, as typing and backspace keep them. */
  predicate Packed(cur: Slots)
  {
    forall i, j | 0 <= i < j < |cur| :: cur[i] == "" ==> cur[j] == ""
  }

  /** Backspace: empties the last non-empty slot; an all-empty buffer is unchanged. */
  function Backspace(cur: Slots): (r: Slots)
    ensures |r| == |cur|
    ensures forall j | 0 <= j < |cur| :: r[j] == cur[j] || (cur[j] != "" && r[j] == "")
  {
    var i := LastFilled(cur);
    if i == -1 then cur else cur[i := ""]
  }

  /** Typing a key fills the first empty slot; a full buffer is unchanged. */
  function InsertKey(cur: Slots, key: string): (r: Slots)
    ensures |r| == |cur|
    ensures forall j | 0 <= j < |cur| :: r[j] == cur[j] || (cur[j] == "" && r[j] == key)
  {
    var i := FirstEmpty(cur);
    if i == -1 then cur else cur[i := key]
  }

  /** Backspace keeps the length, empties exactly the last non-empty slot and
      touches no other slot. */
  lemma BackspaceClearsLast(cur: Slots)
    ensures |Backspace(cur)| == |cur|
    ensures (forall j | 0 <= j < |cur| :: cur[j] == "") ==> Backspace(cur) == cur
    ensures forall i | 0 <= i < |cur| && cur[i] != "" && (forall j | i < j < |cur| :: cur[j] == "") ::
      Backspace(cur) == cur[i := ""]
  {
  }

  /** Typing a non-empty key fills exactly the first empty slot, or nothing when full. */
  lemma InsertFillsFirstEmpty(cur: Slots, key: string)
    ensures |InsertKey(cur, key)| == |cur|
    ensures (forall j | 0 <= j < |cur| :: cur[j] != "") ==> InsertKey(cur, key) == cur
    ensures forall i | 0 <= i < |cur| && cur[i] == "" && (forall j | 0 <= j < i :: cur[j] != "") ::
      InsertKey(cur, key) == cur[i := key]
  {
  }

  lemma PackedPreserved(cur: Slots, key: string)
    requires Packed(cur) && key != ""
    ensures Packed(Backspace(cur))
    ensures Packed(InsertKey(cur, key))
  {
  }

  /** In a packed buffer with room left, backspace undoes typing a key. */
  lemma BackspaceUndoesInsert(cur: Slots, key: string)
    requires Packed(cur) && key != "" && FirstEmpty(cur) != -1
    ensures Backspace(InsertKey(cur, key)) == cur
  {
    var i := FirstEmpty(cur);
    var c := InsertKey(cur, key);
    assert c[i] != "" && forall j | i < j < |c| :: c[j] == "";
    assert LastFilled(c) == i;
  }
}

=== FILE: keyboard.dfy ===
/** The on-screen keyboard colouring of the game page: each key shows the best
    state its letter has received in any submitted guess. */
module Keyboard {
  import opened CaseFold
  import opened Wordle

  /** A submitted attempt: the lowercased guess and its evaluation. */
  datatype GuessResult = GuessResult(guess: string, states: seq<LetterState>)

  /** Key (an uppercased letter) to its current colour; keys never guessed
      have no entry. */
  type KeyColours = map<char, LetterState>

  function Priority(s: LetterState): nat
  {
    match s
    case Correct => 3
    case Present => 2
    case Absent => 1
  }

  /** No key of kb is missing from r or shown there at a lower priority. */
  predicate Raised(kb: KeyColours, r: KeyColours)
  {
    forall k | k in kb :: k in r && Priority(kb[k]) <= Priority(r[k])
  }

  /** Every key of r shows either s, at `key`, or the colour it had in prev. */
  predicate ChangesOnly(prev: KeyColours, r: KeyColours, key: char, s: LetterState)
  {
    forall k | k in r :: (k == key && r[k] == s) || (k in prev && r[k] == prev[k])
  }

  /** Records one guessed letter: a new key takes the state, a known key only
      moves to a strictly higher-priority one. */
  function MergeKey(kb: KeyColours, letter: char, s: LetterState): (r: KeyColours)
    ensures Upper(letter) in r && Priority(r[Upper(letter)]) >= Priority(s)
    ensures Raised(kb, r)
    ensures ChangesOnly(kb, r, Upper(letter), s)
  {
    var k := Upper(letter);
    if k !in kb || Priority(s) > Priority(kb[k]) then kb[k := s] else kb
  }

  /** Records the first n letters of a guess, left to right. A letter with no
      state (past the end of `states`) leaves the keyboard as it is. */
  function MergeLetters(kb: KeyColours, g: GuessResult, n: nat): (r: KeyColours)
    requires n <= |g.guess|
  {
    if n == 0 then kb
    else
      var prev := MergeLetters(kb, g, n - 1);
      if n - 1 < |g.states| then MergeKey(prev, g.guess[n - 1], g.states[n - 1]) else prev
  }

  function MergeGuess(kb: KeyColours, g: GuessResult): KeyColours
  {
    MergeLetters(kb, g, |g.guess|)
  }

  /** Keyboard colouring after the given guesses, in submission order. */
  function KeyboardOf(gs: seq<GuessResult>): KeyColours
  {
    if gs == [] then map[] else MergeGuess(KeyboardOf(gs[..|gs| - 1]), gs[|gs| - 1])
  }

  /** Letter j of guess i has a state. */
  predicate Occurs(gs: seq<GuessResult>, i: int, j: int)
  {
    0 <= i < |gs| && 0 <= j < |gs[i].guess| && j < |gs[i].states|
  }

  function KeyAt(gs: seq<GuessResult>, i: int, j: int): char
    requires Occurs(gs, i, j)
  {
    Upper(gs[i].guess[j])
  }

  /** Every occurrence has its key on the keyboard, at no lower priority. */
  ghost predicate Dominates(kb: KeyColours, gs: seq<GuessResult>)
  {
    forall i, j | Occurs(gs, i, j) ::
      KeyAt(gs, i, j) in kb && Priority(gs[i].states[j]) <= Priority(kb[KeyAt(gs, i, j)])
  }

  /** Every key's colour was given to some occurrence of its letter. */
  ghost predicate Witnessed(kb: KeyColours, gs: seq<GuessResult>)
  {
    forall k | k in kb :: exists i, j | Occurs(gs, i, j) :: KeyAt(gs, i, j) == k && gs[i].states[j] == kb[k]
  }

  /** The guesses before `g`, followed by the first n letters of `g`. */
  function Upto(p: seq<GuessResult>, g: GuessResult, n: nat): seq<GuessResult>
    requires n <= |g.guess|
  {
    p + [GuessResult(g.guess[..n], g.states)]
  }

  /** Every occurrence of q other than (i0, j0) is an occurrence of q' with
      the same key and state. */
  ghost predicate AddsAtMost(q': seq<GuessResult>, q: seq<GuessResult>, i0: int, j0: int)
  {
    forall i, j | Occurs(q, i, j) && !(i == i0 && j == j0) ::
      Occurs(q', i, j) && KeyAt(q', i, j) == KeyAt(q, i, j) && q'[i].states[j] == q[i].states[j]
  }

  /** Every occurrence of q' is an occurrence of q with the same key and state. */
  ghost predicate Keeps(q': seq<GuessResult>, q: seq<GuessResult>)
  {
    forall i, j | Occurs(q', i, j) ::
      Occurs(q, i, j) && KeyAt(q', i, j) == KeyAt(q, i, j) && q'[i].states[j] == q[i].states[j]
  }

  /** Upto(p, g, 0) has exactly the occurrences of p. */
  lemma UptoZero(p: seq<GuessResult>, g: GuessResult)
    ensures AddsAtMost(p, Upto(p, g, 0), -1, -1) && Keeps(p, Upto(p, g, 0))
  {
  }

  /** Upto(p, g, n) adds to Upto(p, g, n - 1) at most letter n - 1 of g. */
  lemma UptoStep(p: seq<GuessResult>, g: GuessResult, n: nat)
    requires 0 < n <= |g.guess|
    ensures AddsAtMost(Upto(p, g, n - 1), Upto(p, g, n), |p|, n - 1)
    ensures Keeps(Upto(p, g, n - 1), Upto(p, g, n))
    ensures Occurs(Upto(p, g, n), |p|, n - 1) <==> n - 1 < |g.states|
    ensures n - 1 < |g.states| ==>
      KeyAt(Upto(p, g, n), |p|, n - 1) == Upper(g.guess[n - 1])
      && Upto(p, g, n)[|p|].states[n - 1] == g.states[n - 1]
  {
  }

  /** Domination carries over to a keyboard that lowers no key, and that
      holds the one possibly new occurrence (i0, j0) at no lower priority. */
  lemma DominatesStep(q': seq<GuessResult>, q: seq<GuessResult>, prev: KeyColours, r: KeyColours,
                      key: char, s: LetterState, i0: int, j0: int)
    requires Dominates(prev, q')
    requires AddsAtMost(q', q, i0, j0)
    requires Occurs(q, i0, j0) ==>
      KeyAt(q, i0, j0) == key && q[i0].states[j0] == s && key in r && Priority(s) <= Priority(r[key])
    requires Raised(prev, r)
    ensures Dominates(r, q)
  {
    forall i, j | Occurs(q, i, j)
      ensures KeyAt(q, i, j) in r && Priority(q[i].states[j]) <= Priority(r[KeyAt(q, i, j)])
    {
      if !(i == i0 && j == j0) {
        assert Occurs(q', i, j);
      }
    }
  }

  /** One more letter with a state keeps the keyboard dominating the
      occurrences so far. */
  lemma DominatesNextLetter(p: seq<GuessResult>, kb: KeyColours, g: GuessResult, n: nat)
    requires 0 < n <= |g.guess| && n - 1 < |g.states|
    requires Dominates(MergeLetters(kb, g, n - 1), Upto(p, g, n - 1))
    ensures Dominates(MergeLetters(kb, g, n), Upto(p, g, n))
  {
    UptoStep(p, g, n);
    var q', q := Upto(p, g, n - 1), Upto(p, g, n);
    var prev, s := MergeLetters(kb, g, n - 1), g.states[n - 1];
    var r := MergeKey(prev, g.guess[n - 1], s);
    DominatesStep(q', q, prev, r, Upper(g.guess[n - 1]), s, |p|, n - 1);
  }

  /** A letter past the end of the states adds no occurrence. */
  lemma DominatesStatelessLetter(p: seq<GuessResult>, kb: KeyColours, g: GuessResult, n: nat)
    requires 0 < n <= |g.guess| && n - 1 >= |g.states|
    requires Dominates(MergeLetters(kb, g, n - 1), Upto(p, g, n - 1))
    ensures Dominates(MergeLetters(kb, g, n), Upto(p, g, n))
  {
    UptoStep(p, g, n);
    var prev := MergeLetters(kb, g, n - 1);
    DominatesStep(Upto(p, g, n - 1), Upto(p, g, n), prev, prev, 'a', Absent, |p|, n - 1);
  }

  lemma {:induction false} MergeLettersDominates(p: seq<GuessResult>, kb: KeyColours, g: GuessResult, n: nat)
    requires n <= |g.guess|
    requires Dominates(kb, p)
    ensures Dominates(MergeLetters(kb, g, n), Upto(p, g, n))
  {
    if n == 0 {
      UptoZero(p, g);
      DominatesStep(p, Upto(p, g, 0), kb, kb, 'a', Absent, -1, -1);
    } else {
      MergeLettersDominates(p, kb, g, n - 1);
      if n - 1 < |g.states| {
        DominatesNextLetter(p, kb, g, n);
      } else {
        DominatesStatelessLetter(p, kb, g, n);
      }
    }
  }

  /** Witnesses survive when every old occurrence is still there. */
  lemma WitnessedKeep(q': seq<GuessResult>, q: seq<GuessResult>, kb: KeyColours)
    requires Witnessed(kb, q')
    requires Keeps(q', q)
    ensures Witnessed(kb, q)
  {
    forall k | k in kb
      ensures exists i, j | Occurs(q, i, j) :: KeyAt(q, i, j) == k && q[i].states[j] == kb[k]
    {
      var i, j :| Occurs(q', i, j) && KeyAt(q', i, j) == k && q'[i].states[j] == kb[k];
      assert Occurs(q, i, j);
    }
  }

  /** A key that takes a new state is witnessed by the new occurrence; the
      other keys keep their old witnesses. */
  lemma WitnessedStep(q': seq<GuessResult>, q: seq<GuessResult>, prev: KeyColours, r: KeyColours,
                      key: char, s: LetterState, i0: int, j0: int)
    requires Witnessed(prev, q')
    requires Keeps(q', q)
    requires Occurs(q, i0, j0) && KeyAt(q, i0, j0) == key && q[i0].states[j0] == s
    requires ChangesOnly(prev, r, key, s)
    ensures Witnessed(r, q)
  {
    forall k | k in r
      ensures exists i, j | Occurs(q, i, j) :: KeyAt(q, i, j) == k && q[i].states[j] == r[k]
    {
      if k == key && r[k] == s {
        assert Occurs(q, i0, j0);
      } else {
        var i, j :| Occurs(q', i, j) && KeyAt(q', i, j) == k && q'[i].states[j] == prev[k];
        assert Occurs(q, i, j);
      }
    }
  }

  lemma {:induction false} MergeLettersWitnessed(p: seq<GuessResult>, kb: KeyColours, g: GuessResult, n: nat)
    requires n <= |g.guess|
    requires Witnessed(kb, p)
    ensures Witnessed(MergeLetters(kb, g, n), Upto(p, g, n))
  {
    if n == 0 {
      UptoZero(p, g);
      WitnessedKeep(p, Upto(p, g, 0), kb);
    } else {
      MergeLettersWitnessed(p, kb, g, n - 1);
      UptoStep(p, g, n);
      var q', q := Upto(p, g, n - 1), Upto(p, g, n);
      var prev := MergeLetters(kb, g, n - 1);
      if n - 1 < |g.states| {
        var r := MergeKey(prev, g.guess[n - 1], g.states[n - 1]);
        WitnessedStep(q', q, prev, r, Upper(g.guess[n - 1]), g.states[n - 1], |p|, n - 1);
      } else {
        WitnessedKeep(q', q, prev);
      }
    }
  }

  /** Each key shows the highest-priority state among all occurrences of its
      letter (uppercased) in the submitted guesses, and keys never guessed
      have no colour. */
  lemma {:induction false} KeyboardIsBest(gs: seq<GuessResult>)
    ensures Dominates(KeyboardOf(gs), gs) && Witnessed(KeyboardOf(gs), gs)
    ensures forall k :: k in KeyboardOf(gs) <==> exists i, j | Occurs(gs, i, j) :: KeyAt(gs, i, j) == k
  {
    if gs != [] {
      var p, g := gs[..|gs| - 1], gs[|gs| - 1];
      KeyboardIsBest(p);
      MergeLettersDominates(p, KeyboardOf(p), g, |g.guess|);
      MergeLettersWitnessed(p, KeyboardOf(p), g, |g.guess|);
      assert g.guess[..|g.guess|] == g.guess;
      assert Upto(p, g, |g.guess|) == gs;
    }
  }

  /** Keys are uppercase: each key is the uppercase form of a guessed
      letter, so uppercasing leaves it as it is, and no key is an ASCII small
      letter. */
  lemma KeysAreUppercase(gs: seq<GuessResult>)
    ensures forall k | k in KeyboardOf(gs) :: Upper(k) == k && !IsAsciiLower(k)
  {
    KeyboardIsBest(gs);
    forall k | k in KeyboardOf(gs)
      ensures Upper(k) == k
    {
      var i, j :| Occurs(gs, i, j) && KeyAt(gs, i, j) == k;
      UpperIdempotent(gs[i].guess[j]);
    }
  }

  /** Raising keys twice raises them. */
  lemma RaisesTrans(kb: KeyColours, prev: KeyColours, r: KeyColours)
    ensures Raised(kb, prev) && Raised(prev, r) ==> Raised(kb, r)
  {
  }

  lemma {:induction false} MergeLettersRaises(kb: KeyColours, g: GuessResult, n: nat)
    requires n <= |g.guess|
    ensures Raised(kb, MergeLetters(kb, g, n))
  {
    if n > 0 {
      MergeLettersRaises(kb, g, n - 1);
      var prev := MergeLetters(kb, g, n - 1);
      if n - 1 < |g.states| {
        var r := MergeKey(prev, g.guess[n - 1], g.states[n - 1]);
        RaisesTrans(kb, prev, r);
      }
    }
  }

  /** Submitting another guess never downgrades or removes a key's colour. */
  lemma NeverDowngrades(gs: seq<GuessResult>, g: GuessResult)
    ensures forall k | k in KeyboardOf(gs) ::
      k in KeyboardOf(gs + [g]) && Priority(KeyboardOf(gs)[k]) <= Priority(KeyboardOf(gs + [g])[k])
  {
    assert (gs + [g])[..|gs|] == gs;
    MergeLettersRaises(KeyboardOf(gs), g, |g.guess|);
  }
}

=== FILE: optional.dfy ===
/** A value that may be missing: JavaScript's `null` / `undefined` for the
    callers modelled here. */
module Optional {

  datatype Option<+T> = None | Some(value: T)

}

=== FILE: result_store.dfy ===
/** The result-submission endpoint: validates a finished game's payload and
    records at most one result per user and day, over an abstract store. */
module ResultStore {
  import opened Optional
  import opened Accounts

  const MaxAttempts: real := 6.0

  type DayId = string
  /** Calendar day as `YYYY-MM-DD`. */
  type DateKey = string

  /** A parsed JSON value. Numbers are finite reals; the `Infinity` that
      `JSON.parse` gives for a literal such as `1e400` is not represented. */
  datatype Json =
    | JNull
    | JBool(b: bool)
    | JNumber(n: real)
    | JString(s: string)
    | JArray(items: seq<Json>)
    | JObject(fields: map<string, Json>)

  /** A stored game result. */
  datatype Record = Record(attempts: real, seconds: real, solved: bool)

  /** The day table (date to day id) and the result table keyed by (user, day). */
  datatype Store = Store(days: map<DateKey, DayId>, results: map<(UserId, DayId), Record>)

  datatype BadRequest = InvalidPayload | MissingFields | InvalidAttempts | InvalidTime | NoWordForDay

  datatype Response =
    | Unauthorized
    | Rejected(reason: BadRequest)
    | AlreadyRecorded
    | Recorded(result: Record)

  function StatusCode(r: Response): nat
  {
    match r
    case Unauthorized => 401
    case Rejected(_) => 400
    case AlreadyRecorded => 409
    case Recorded(_) => 200
  }

  /** JavaScript truthiness of a JSON value. */
  predicate Truthy(v: Json)
  {
    match v
    case JNull => false
    case JBool(b) => b
    case JNumber(n) => n != 0.0
    case JString(s) => s != ""
    case JArray(_) => true
    case JObject(_) => true
  }

  /** Property access `body.name`: present only on objects that have the key. */
  function Field(body: Json, name: string): Option<Json>
  {
    if body.JObject? && name in body.fields then Some(body.fields[name]) else None
  }

  predicate IsNumber(v: Option<Json>) { v.Some? && v.value.JNumber? }

  predicate IsBool(v: Option<Json>) { v.Some? && v.value.JBool? }

  /** `POST /api/wordle/result`. `user` is the session's user (None when not
      logged in), `body` the parsed request body (None when it does not
      parse), and `today` the current date key. */
  function Post(store: Store, user: Option<UserId>, body: Option<Json>, today: DateKey): (r: (Response, Store))
    ensures r.1.days == store.days
    ensures r.1 != store ==> r.0.Recorded?
    ensures forall key | key in store.results :: key in r.1.results && r.1.results[key] == store.results[key]
    ensures r.0.Recorded? ==> 1.0 <= r.0.result.attempts <= MaxAttempts && r.0.result.seconds >= 0.0
  {
    if user.None? then (Unauthorized, store)
    else if body.None? || !Truthy(body.value) then (Rejected(InvalidPayload), store)
    else
      var attempts := Field(body.value, "attempts");
      var seconds := Field(body.value, "seconds");
      var solved := Field(body.value, "solved");
      if !IsNumber(attempts) || !IsNumber(seconds) || !IsBool(solved) then (Rejected(MissingFields), store)
      else if attempts.value.n < 1.0 || attempts.value.n > MaxAttempts then (Rejected(InvalidAttempts), store)
      else if seconds.value.n < 0.0 then (Rejected(InvalidTime), store)
      else if today !in store.days then (Rejected(NoWordForDay), store)
      else
        var key := (user.value, store.days[today]);
        if key in store.results then (AlreadyRecorded, store)
        else
          var rec := Record(attempts.value.n, seconds.value.n, solved.value.b);
          (Recorded(rec), store.(results := store.results[key := rec]))
  }

  /** A body with the three fields. */
  function Payload(attempts: real, seconds: real, solved: bool): Json
  {
    JObject(map["attempts" := JNumber(attempts), "seconds" := JNumber(seconds), "solved" := JBool(solved)])
  }

  /** What the endpoint accepts: an object with numeric `attempts` in 1..6,
      numeric `seconds` not below 0, and boolean `solved`. */
  predicate AcceptablePayload(body: Option<Json>)
  {
    && body.Some? && body.value.JObject?
    && var f := body.value.fields;
    && "attempts" in f && f["attempts"].JNumber? && 1.0 <= f["attempts"].n <= MaxAttempts
    && "seconds" in f && f["seconds"].JNumber? && f["seconds"].n >= 0.0
    && "solved" in f && f["solved"].JBool?
  }

  /** The record an acceptable body describes. */
  function RecordOf(body: Option<Json>): Record
    requires AcceptablePayload(body)
  {
    var f := body.value.fields;
    Record(f["attempts"].n, f["seconds"].n, f["solved"].b)
  }

  /** A request without a session is refused with 401 before anything else is looked at. */
  lemma UnauthenticatedRefused(store: Store, body: Option<Json>, today: DateKey)
    ensures Post(store, None, body, today) == (Unauthorized, store)
    ensures StatusCode(Post(store, None, body, today).0) == 401
  {
  }

  /** A logged-in request is refused with 400 exactly when its payload is
      unacceptable or no word is assigned to today; the reason is the first
      check that fails. */
  lemma ValidationCascade(store: Store, user: UserId, body: Option<Json>, today: DateKey)
    ensures var resp := Post(store, Some(user), body, today).0;
      && (resp.Rejected? <==> !AcceptablePayload(body) || today !in store.days)
      && (resp.Rejected? ==> StatusCode(resp) == 400)
      && (resp == Rejected(InvalidPayload) <==> body.None? || !Truthy(body.value))
      && (resp == Rejected(MissingFields) <==>
            body.Some? && Truthy(body.value)
            && !(IsNumber(Field(body.value, "attempts")) && IsNumber(Field(body.value, "seconds"))
                 && IsBool(Field(body.value, "solved"))))
      && (resp == Rejected(InvalidAttempts) ==>
            var a := body.value.fields["attempts"].n; a < 1.0 || a > MaxAttempts)
      && (resp == Rejected(InvalidTime) ==>
            1.0 <= body.value.fields["attempts"].n <= MaxAttempts && body.value.fields["seconds"].n < 0.0)
      && (resp == Rejected(NoWordForDay) <==> AcceptablePayload(body) && today !in store.days)
  {
  }

  /** The store changes only when a result is recorded, and then only by the
      one new entry for (user, today's day), which did not exist before; the
      response echoes the stored values. */
  lemma RecordingAddsOneEntry(store: Store, user: Option<UserId>, body: Option<Json>, today: DateKey)
    ensures var (resp, after) := Post(store, user, body, today);
      && (!resp.Recorded? ==> after == store)
      && (resp.Recorded? <==>
            user.Some? && AcceptablePayload(body) && today in store.days
            && (user.value, store.days[today]) !in store.results)
      && (resp.Recorded? ==>
            && resp.result == RecordOf(body)
            && after.days == store.days
            && after.results == store.results[(user.value, store.days[today]) := RecordOf(body)])
  {
  }

  /** An existing result for (user, today's day) gives 409 and leaves the store alone. */
  lemma DuplicateConflicts(store: Store, user: UserId, body: Option<Json>, today: DateKey)
    requires AcceptablePayload(body) && today in store.days
    requires (user, store.days[today]) in store.results
    ensures Post(store, Some(user), body, today) == (AlreadyRecorded, store)
    ensures StatusCode(Post(store, Some(user), body, today).0) == 409
  {
  }

  /** Once a user's result for a day is recorded, no later submission that
      day records another. */
  lemma AtMostOncePerDay(store: Store, user: UserId, first: Option<Json>, second: Option<Json>, today: DateKey)
    requires Post(store, Some(user), first, today).0.Recorded?
    ensures var after := Post(store, Some(user), first, today).1;
      !Post(after, Some(user), second, today).0.Recorded?
  {
  }

  /** Every stored record is one the endpoint accepts, filed under a known day. */
  ghost predicate WellFormed(store: Store)
  {
    forall key | key in store.results ::
      && key.1 in store.days.Values
      && 1.0 <= store.results[key].attempts <= MaxAttempts
      && store.results[key].seconds >= 0.0
  }

  /** Submissions keep the store well formed and never alter or drop an
      existing result. */
  lemma PostPreservesStore(store: Store, user: Option<UserId>, body: Option<Json>, today: DateKey)
    requires WellFormed(store)
    ensures var after := Post(store, user, body, today).1;
      && WellFormed(after)
      && (forall key | key in store.results :: key in after.results && after.results[key] == store.results[key])
  {
    var (resp, after) := Post(store, user, body, today);
    if resp.Recorded? {
      assert store.days[today] in store.days.Values;
    }
  }

  lemma ExampleSubmission(store: Store)
    requires "2025-01-02" in store.days && ("ana", store.days["2025-01-02"]) !in store.results
    ensures Post(store, Some("ana"), Some(Payload(3.0, 42.0, true)), "2025-01-02").0
      == Recorded(Record(3.0, 42.0, true))
  {
  }
}

=== FILE: seed_words.dfy ===
/** The word-list seeding pipeline: raw lines of the dictionary file are
    normalised, filtered to five ASCII letters, deduplicated keeping the first
    occurrence, and the first 600 are selected. */
module SeedWords {
  import opened CaseFold
  import opened Sequences

  const WordLength: nat := 5
  const WordCount: nat := 600

  /** The selected words, or the failure raised when too few valid unique
      words remain (carrying how many were found). */
  datatype Selection = Selected(words: seq<string>) | TooFewWords(found: nat)

  /** A row written to the word table. */
  datatype WordRecord = WordRecord(text: string, length: nat)

  /** The characters `String.prototype.trim` removes: white space and line
      terminators. */
  predicate IsJsWhiteSpace(c: char)
  {
    || c == '\t' || c == '\n' || c == '\U{000B}' || c == '\U{000C}' || c == '\r' || c == ' '
    || c == '\U{00A0}' || c == '\U{1680}' || ('\U{2000}' <= c <= '\U{200A}')
    || c == '\U{2028}' || c == '\U{2029}' || c == '\U{202F}' || c == '\U{205F}'
    || c == '\U{3000}' || c == '\U{FEFF}'
  }

  function TrimStart(s: string): (r: string)
    ensures |r| <= |s| && r == s[|s| - |r|..]
    ensures forall k | 0 <= k < |s| - |r| :: IsJsWhiteSpace(s[k])
    ensures r != [] ==> !IsJsWhiteSpace(r[0])
  {
    if s != [] && IsJsWhiteSpace(s[0]) then TrimStart(s[1..]) else s
  }

  function TrimEnd(s: string): (r: string)
    ensures |r| <= |s| && r == s[..|r|]
    ensures forall k | |r| <= k < |s| :: IsJsWhiteSpace(s[k])
    ensures r != [] ==> !IsJsWhiteSpace(r[|r| - 1])
  {
    if s != [] && IsJsWhiteSpace(s[|s| - 1]) then TrimEnd(s[..|s| - 1]) else s
  }

  /** r is s[i..i + |r|], and everything of s around it is white space. */
  predicate CutFrom(s: string, i: int, r: string)
  {
    && 0 <= i <= |s| - |r|
    && s[i..i + |r|] == r
    && (forall k | 0 <= k < i :: IsJsWhiteSpace(s[k]))
    && (forall k | i + |r| <= k < |s| :: IsJsWhiteSpace(s[k]))
  }

  /** `String.prototype.trim`: the run of s left after dropping white space
      from both ends. */
  function Trim(s: string): (r: string)
    ensures exists i :: CutFrom(s, i, r)
    ensures r != [] ==> !IsJsWhiteSpace(r[0]) && !IsJsWhiteSpace(r[|r| - 1])
  {
    var t := TrimStart(s);
    var r := TrimEnd(t);
    TrimsCut(s, t, r);
    r
  }

  /** Dropping white space from the front and then from the back cuts the
      remainder out of s with only white space around it. */
  lemma TrimsCut(s: string, t: string, r: string)
    requires |t| <= |s| && t == s[|s| - |t|..]
    requires forall k | 0 <= k < |s| - |t| :: IsJsWhiteSpace(s[k])
    requires |r| <= |t| && r == t[..|r|]
    requires forall k | |r| <= k < |t| :: IsJsWhiteSpace(t[k])
    ensures CutFrom(s, |s| - |t|, r)
  {
    var i := |s| - |t|;
    assert s[i..i + |r|] == r by {
      forall k | 0 <= k < |r|
        ensures s[i..i + |r|][k] == r[k]
      {
        assert r[k] == t[k] == s[i + k];
      }
    }
    forall k | i + |r| <= k < |s|
      ensures IsJsWhiteSpace(s[k])
    {
      assert s[k] == t[k - i];
    }
  }

  /** `word.trim().toLowerCase()`. */
  function Normalize(line: string): (r: string)
    ensures |r| == |Trim(line)|
    ensures forall i | 0 <= i < |r| :: !IsAsciiUpper(r[i])
  {
    LowerStr(Trim(line))
  }

  /** `word.length === 5 && /^[a-z]+$/.test(word)`. */
  predicate IsCandidate(w: string)
  {
    |w| == WordLength && forall i | 0 <= i < |w| :: IsAsciiLower(w[i])
  }

  /** `lines.map(word => word.trim().toLowerCase())`. */
  function NormalizeAll(lines: seq<string>): (ws: seq<string>)
    ensures |ws| == |lines|
    ensures forall w | w in ws :: forall i | 0 <= i < |w| :: !IsAsciiUpper(w[i])
  {
    seq(|lines|, k requires 0 <= k < |lines| => Normalize(lines[k]))
  }

  /** The normalised lines that pass the filter
      `word.length === 5 && /^[a-z]+$/.test(word)`, in file order. */
  function Candidates(lines: seq<string>): seq<string>
  {
    Filter(NormalizeAll(lines), IsCandidate)
  }

  /** A word is a candidate exactly when some line normalises to it and it
      passes the filter. */
  lemma CandidatesAreFilteredLines(lines: seq<string>, w: string)
    ensures w in Candidates(lines) <==> IsCandidate(w) && exists k | 0 <= k < |lines| :: Normalize(lines[k]) == w
  {
    var ws := NormalizeAll(lines);
    assert forall k | 0 <= k < |lines| :: ws[k] == Normalize(lines[k]);
    if w in Candidates(lines) {
      var k :| 0 <= k < |ws| && ws[k] == w;
      assert Normalize(lines[k]) == w;
    }
    if IsCandidate(w) && exists k | 0 <= k < |lines| :: Normalize(lines[k]) == w {
      var k :| 0 <= k < |lines| && Normalize(lines[k]) == w;
      assert ws[k] == w;
    }
  }

  /** `Array.from(new Set(ws))`: duplicates dropped, first occurrences kept in order. */
  function Dedupe(ws: seq<string>): (r: seq<string>)
    ensures forall w :: w in r <==> w in ws
    ensures |r| <= |ws|
  {
    if ws == [] then []
    else
      var prev := Dedupe(ws[..|ws| - 1]);
      var w := ws[|ws| - 1];
      assert ws == ws[..|ws| - 1] + [w];
      if w in prev then prev else prev + [w]
  }

  /** The candidate list the script checks and slices. */
  function Filtered(lines: seq<string>): (r: seq<string>)
    ensures NoDuplicates(r)
    ensures forall w :: w in r <==> w in Candidates(lines)
    ensures forall w | w in r :: IsCandidate(w)
  {
    DedupeKeepsFirstOccurrences(Candidates(lines));
    Dedupe(Candidates(lines))
  }

  /** The whole pipeline from the dictionary's lines to the words to insert. */
  function SelectWords(lines: seq<string>): (r: Selection)
    ensures r.TooFewWords? <==> |Filtered(lines)| < WordCount
    ensures r.TooFewWords? ==> r.found == |Filtered(lines)|
    ensures r.Selected? ==> |r.words| == WordCount && r.words == Filtered(lines)[..WordCount]
  {
    var filtered := Filtered(lines);
    if |filtered| < WordCount then TooFewWords(|filtered|) else Selected(filtered[..WordCount])
  }

  /** `selected.map(text => ({ text, length: text.length }))`. */
  function Records(words: seq<string>): (r: seq<WordRecord>)
    ensures |r| == |words|
    ensures forall x | x in r :: x.text in words && x.length == |x.text|
    ensures forall i | 0 <= i < |words| :: r[i].text == words[i]
  {
    seq(|words|, i requires 0 <= i < |words| => WordRecord(words[i], |words[i]|))
  }

  /** The text column of a list of records. */
  function Texts(rs: seq<WordRecord>): seq<string>
  {
    if rs == [] then [] else Texts(rs[..|rs| - 1]) + [rs[|rs| - 1].text]
  }

  /** Reading the text column back from the written records gives exactly
      the selected words, in order: every word gets its record and nothing
      else is written. */
  lemma {:induction false} RecordsReadBack(words: seq<string>)
    ensures Texts(Records(words)) == words
  {
    if words != [] {
      var p := words[..|words| - 1];
      RecordsReadBack(p);
      assert Records(words)[..|words| - 1] == Records(p);
    }
  }

  /** Index of the first occurrence of w. */
  function FirstIndex(ws: seq<string>, w: string): (k: nat)
    requires w in ws
    ensures k < |ws| && ws[k] == w && w !in ws[..k]
  {
    if ws[0] == w then 0 else 1 + FirstIndex(ws[1..], w)
  }

  lemma {:induction false} FirstIndexAppend(ws: seq<string>, x: string, w: string)
    requires w in ws
    ensures FirstIndex(ws + [x], w) == FirstIndex(ws, w)
  {
    if ws[0] != w {
      assert (ws + [x])[1..] == ws[1..] + [x];
      FirstIndexAppend(ws[1..], x, w);
    }
  }

  lemma FirstIndexOfNew(ws: seq<string>, x: string)
    requires x !in ws
    ensures FirstIndex(ws + [x], x) == |ws|
  {
    assert forall i | 0 <= i < |ws| :: (ws + [x])[i] != x;
  }

  /** The deduplicated list has no repeats, and lists words in the order of
      their first occurrence in the input. */
  lemma {:induction false} DedupeKeepsFirstOccurrences(ws: seq<string>)
    ensures NoDuplicates(Dedupe(ws))
    ensures forall i, j | 0 <= i < j < |Dedupe(ws)| ::
      FirstIndex(ws, Dedupe(ws)[i]) < FirstIndex(ws, Dedupe(ws)[j])
  {
    if ws != [] {
      var p, x := ws[..|ws| - 1], ws[|ws| - 1];
      assert ws == p + [x];
      DedupeKeepsFirstOccurrences(p);
      var d := Dedupe(p);
      forall w | w in d
        ensures FirstIndex(ws, w) == FirstIndex(p, w)
      {
        FirstIndexAppend(p, x, w);
      }
      if x !in d {
        FirstIndexOfNew(p, x);
        forall w | w in d
          ensures FirstIndex(p, w) < |p|
        {
        }
      }
    }
  }

  /** Deduplicating a list that has no repeats returns it unchanged. */
  lemma {:induction false} DedupeOfDistinct(ws: seq<string>)
    requires NoDuplicates(ws)
    ensures Dedupe(ws) == ws
  {
    if ws != [] {
      var p, x := ws[..|ws| - 1], ws[|ws| - 1];
      DedupeOfDistinct(p);
      assert x !in p;
    }
  }

  /** Every selected word is a normalised dictionary line of five letters
      a-z, the words are distinct, and they are the first 600 distinct valid
      words in file order. */
  lemma SelectionIsValid(lines: seq<string>)
    requires SelectWords(lines).Selected?
    ensures var ws, c := SelectWords(lines).words, Candidates(lines);
      && NoDuplicates(ws)
      && (forall w | w in ws :: w in c)
      && (forall i, j | 0 <= i < j < |ws| :: FirstIndex(c, ws[i]) < FirstIndex(c, ws[j]))
      && (forall w | w in ws :: IsCandidate(w) && exists k | 0 <= k < |lines| :: Normalize(lines[k]) == w)
  {
    var c, f := Candidates(lines), Filtered(lines);
    DedupeKeepsFirstOccurrences(c);
    var ws := SelectWords(lines).words;
    assert ws == f[..WordCount];
    PrefixKeepsOrder(c, f, WordCount);
    forall w | w in ws
      ensures IsCandidate(w) && exists k | 0 <= k < |lines| :: Normalize(lines[k]) == w
    {
      assert w in f;
      CandidatesAreFilteredLines(lines, w);
    }
  }

  /** A prefix of a repeat-free list ordered by first occurrence in c is
      again repeat-free and so ordered. */
  lemma PrefixKeepsOrder(c: seq<string>, f: seq<string>, n: nat)
    requires n <= |f|
    requires forall w | w in f :: w in c
    requires NoDuplicates(f)
    requires forall i, j | 0 <= i < j < |f| :: FirstIndex(c, f[i]) < FirstIndex(c, f[j])
    ensures NoDuplicates(f[..n])
    ensures forall i, j | 0 <= i < j < n :: FirstIndex(c, f[..n][i]) < FirstIndex(c, f[..n][j])
  {
    assert forall i | 0 <= i < n :: f[..n][i] == f[i];
  }

  /** Words with `ñ` or accented letters are never selected. */
  lemma SpanishLettersDropped(w: string)
    requires exists i | 0 <= i < |w| :: w[i] in {'ñ', 'á', 'é', 'í', 'ó', 'ú', 'ü'}
    ensures !IsCandidate(w)
  {
  }

  /** Each written record is a five-letter word whose length field matches its text. */
  lemma RecordsHaveWordLength(lines: seq<string>)
    requires SelectWords(lines).Selected?
    ensures forall r | r in Records(SelectWords(lines).words) :: r.length == |r.text| == WordLength
  {
    SelectionIsValid(lines);
    var ws := SelectWords(lines).words;
    forall r | r in Records(ws)
      ensures r.length == |r.text| == WordLength
    {
      var i :| 0 <= i < |ws| && Records(ws)[i] == r;
      assert ws[i] in ws;
    }
  }
}

=== FILE: sequences.dfy ===
/** List operations shared by the dashboard and the seed script:
    `Array.prototype.filter` and what it keeps. */
module Sequences {

  /** `xs.filter(keep)`. */
  function Filter<T>(xs: seq<T>, keep: T -> bool): (r: seq<T>)
    ensures |r| <= |xs|
    ensures forall x | x in r :: x in xs && keep(x)
    ensures forall i | 0 <= i < |xs| && keep(xs[i]) :: xs[i] in r
  {
    if xs == [] then [] else
      var prev := Filter(xs[..|xs| - 1], keep);
      if keep(xs[|xs| - 1]) then prev + [xs[|xs| - 1]] else prev
  }

  /** `ys` is `xs` with some elements left out, the rest in their order. */
  predicate IsSubsequence<T(==)>(ys: seq<T>, xs: seq<T>)
    decreases |xs|
  {
    if ys == [] then true
    else if xs == [] then false
    else if ys[|ys| - 1] == xs[|xs| - 1] then IsSubsequence(ys[..|ys| - 1], xs[..|xs| - 1])
    else IsSubsequence(ys, xs[..|xs| - 1])
  }

  predicate NoDuplicates<T(==)>(xs: seq<T>)
  {
    forall i, j | 0 <= i < j < |xs| :: xs[i] != xs[j]
  }

  /** The filter keeps every element that passes, with its multiplicity, in
      the original order, and nothing else. */
  lemma {:induction false} FilterKeepsOrderAndCount<T>(xs: seq<T>, keep: T -> bool)
    ensures IsSubsequence(Filter(xs, keep), xs)
    ensures forall x :: multiset(Filter(xs, keep))[x] == if keep(x) then multiset(xs)[x] else 0
  {
    if xs != [] {
      var p, x := xs[..|xs| - 1], xs[|xs| - 1];
      FilterKeepsOrderAndCount(p, keep);
      assert xs == p + [x];
      var f := Filter(p, keep);
      if keep(x) {
        assert (f + [x])[..|f|] == f;
      }
    }
  }

  /** A filter that every element passes returns its input. */
  lemma {:induction false} FilterOfUntouched<T>(xs: seq<T>, keep: T -> bool)
    requires forall i | 0 <= i < |xs| :: keep(xs[i])
    ensures Filter(xs, keep) == xs
  {
    if xs != [] {
      var p, x := xs[..|xs| - 1], xs[|xs| - 1];
      forall i | 0 <= i < |p|
        ensures keep(p[i])
      {
        assert p[i] == xs[i];
      }
      FilterOfUntouched(p, keep);
      assert keep(x) && xs == p + [x];
    }
  }

  /** Without repeats, every element occurs at most once. */
  lemma {:induction false} DistinctCounts<T>(xs: seq<T>)
    requires NoDuplicates(xs)
    ensures forall x :: multiset(xs)[x] <= 1
  {
    if xs != [] {
      var p, x := xs[..|xs| - 1], xs[|xs| - 1];
      assert xs == p + [x];
      DistinctCounts(p);
      assert x !in p;
    }
  }

  /** An element found at two positions occurs at least twice. */
  lemma TwoCopies<T>(xs: seq<T>, i: int, j: int)
    requires 0 <= i < j < |xs|
    ensures xs[i] == xs[j] ==> multiset(xs)[xs[i]] >= 2
  {
    assert xs == xs[..i] + [xs[i]] + xs[i + 1..j] + [xs[j]] + xs[j + 1..];
  }

  /** Filtering a list without repeats leaves it without repeats. */
  lemma FilterKeepsDistinct<T>(xs: seq<T>, keep: T -> bool)
    requires NoDuplicates(xs)
    ensures NoDuplicates(Filter(xs, keep))
  {
    var r := Filter(xs, keep);
    FilterKeepsOrderAndCount(xs, keep);
    DistinctCounts(xs);
    forall i, j | 0 <= i < j < |r|
      ensures r[i] != r[j]
    {
      TwoCopies(r, i, j);
      assert r[i] in r;
    }
  }
}

=== FILE: time_format.dfy ===
/** `formatTime` of the game page: elapsed seconds shown as `MM:SS`. */
module TimeFormat {

  predicate IsDigit(c: char) { '0' <= c <= '9' }

  predicate AllDigits(s: string) { forall i | 0 <= i < |s| :: IsDigit(s[i]) }

  function Digit(d: nat): (c: char)
    requires d < 10
    ensures IsDigit(c)
  {
    ('0' as int + d) as char
  }

  /** Value of a string of decimal digits, most significant first. */
  function DigitsValue(s: string): nat
    requires AllDigits(s)
  {
    if s == [] then 0
    else DigitsValue(s[..|s| - 1]) * 10 + (s[|s| - 1] as int - '0' as int)
  }

  /** Decimal rendering of a natural number without leading zeros, as
      `Number.prototype.toString` gives it. */
  function Decimal(n: nat): (s: string)
    ensures AllDigits(s) && |s| >= 1
    ensures n < 10 ==> |s| == 1
    ensures 10 <= n < 100 ==> |s| == 2
    ensures n >= 10 ==> |s| >= 2
    ensures |s| > 1 ==> s[0] != '0'
  {
    if n < 10 then [Digit(n)] else Decimal(n / 10) + [Digit(n % 10)]
  }

  /** `padStart(2, "0")`: strings shorter than two characters get leading zeros. */
  function PadTwo(s: string): (r: string)
    ensures |r| == if |s| >= 2 then |s| else 2
    ensures AllDigits(s) ==> AllDigits(r)
    ensures |s| >= 2 ==> r == s
  {
    if |s| >= 2 then s else seq(2 - |s|, _ => '0') + s
  }

  /** Padding only ever adds '0' characters, all of them before s. */
  lemma PadTwoAddsLeadingZeros(s: string)
    ensures var r := PadTwo(s);
      && r[|r| - |s|..] == s
      && forall k | 0 <= k < |r| - |s| :: r[k] == '0'
  {
  }

  /** `String(n).padStart(2, "0")`: a digit string of at least two characters
      that reads as n. */
  function TwoDigits(n: nat): (r: string)
    ensures |r| >= 2 && AllDigits(r) && DigitsValue(r) == n
    ensures n < 100 ==> |r| == 2
    ensures n >= 10 ==> r[0] != '0'
  {
    DecimalRoundTrip(n);
    PadKeepsValue(Decimal(n));
    PadTwo(Decimal(n))
  }

  function FormatTime(totalSeconds: nat): (r: string)
    ensures |r| >= 5 && r[|r| - 3] == ':'
    ensures AllDigits(r[..|r| - 3]) && AllDigits(r[|r| - 2..])
    ensures DigitsValue(r[..|r| - 3]) == totalSeconds / 60
    ensures DigitsValue(r[|r| - 2..]) == totalSeconds % 60
    ensures totalSeconds < 6000 ==> |r| == 5
    ensures totalSeconds / 60 >= 10 ==> r[0] != '0'
  {
    var minutes := TwoDigits(totalSeconds / 60);
    var seconds := TwoDigits(totalSeconds % 60);
    var r := minutes + ":" + seconds;
    assert r[..|r| - 3] == minutes && r[0] == minutes[0];
    assert r[|r| - 2..] == seconds;
    r
  }

  /** Reading back the decimal rendering gives the number. */
  lemma {:induction false} DecimalRoundTrip(n: nat)
    ensures DigitsValue(Decimal(n)) == n
  {
    if n >= 10 {
      DecimalRoundTrip(n / 10);
      var s := Decimal(n);
      assert s[..|s| - 1] == Decimal(n / 10);
    }
  }

  /** A leading zero does not change the value of a digit string. */
  lemma {:induction false} LeadingZero(s: string)
    requires AllDigits(s)
    ensures DigitsValue(['0'] + s) == DigitsValue(s)
  {
    if s != [] {
      var t := ['0'] + s;
      assert t[..|t| - 1] == ['0'] + s[..|s| - 1];
      LeadingZero(s[..|s| - 1]);
    }
  }

  lemma PadKeepsValue(s: string)
    requires AllDigits(s)
    ensures DigitsValue(PadTwo(s)) == DigitsValue(s)
  {
    if |s| == 1 {
      assert PadTwo(s) == ['0'] + s;
      LeadingZero(s);
    } else if |s| == 0 {
      assert PadTwo(s) == ['0'] + ['0'];
      LeadingZero(['0']);
    }
  }

  /** The duration can be read back from its text. */
  lemma FormatTimeReadBack(t: nat, r: string)
    requires r == FormatTime(t)
    ensures |r| >= 5 && AllDigits(r[..|r| - 3]) && AllDigits(r[|r| - 2..])
    ensures t == 60 * DigitsValue(r[..|r| - 3]) + DigitsValue(r[|r| - 2..])
  {
    assert t == 60 * (t / 60) + t % 60;
  }

  /** Distinct durations are shown differently. */
  lemma FormatTimeInjective(t1: nat, t2: nat)
    requires FormatTime(t1) == FormatTime(t2)
    ensures t1 == t2
  {
    var r := FormatTime(t1);
    FormatTimeReadBack(t1, r);
    FormatTimeReadBack(t2, r);
  }

  lemma NinetySeconds()
    ensures FormatTime(90) == "01:30"
  {
  }
}

=== FILE: wordle.dfy ===
/** The guess evaluator of the word game: every position of a guess is
    classified against the day's answer as correct, present or absent. */
module Wordle {
  import opened CaseFold

  datatype LetterState = Correct | Present | Absent

  /** Outcome of an evaluation: the per-position states, or the failure raised
      when the (lowercased) guess and answer differ in length. */
  datatype Evaluation = Evaluated(states: seq<LetterState>) | LengthMismatch(expected: nat)

  /** Number of positions j < n that are not exact matches and hold `c` in the
      answer: the budget of `c` left for partial credit. */
  function Unmatched(a: string, g: string, c: char, n: nat): nat
    requires n <= |a| == |g|
  {
    if n == 0 then 0
    else Unmatched(a, g, c, n - 1) + (if a[n - 1] != g[n - 1] && a[n - 1] == c then 1 else 0)
  }

  /** Number of positions j < n that are not exact matches and hold `c` in the
      guess: how many earlier guess letters compete for the budget of `c`. */
  function Missed(a: string, g: string, c: char, n: nat): nat
    requires n <= |a| == |g|
  {
    if n == 0 then 0
    else Missed(a, g, c, n - 1) + (if a[n - 1] != g[n - 1] && g[n - 1] == c then 1 else 0)
  }

  /** The state of position i: an exact match is correct; otherwise the letter
      is present exactly when fewer earlier non-exact positions guessed the same
      letter than the answer has unmatched copies of it. */
  function StateAt(a: string, g: string, i: nat): LetterState
    requires i < |a| == |g|
  {
    if g[i] == a[i] then Correct
    else if Missed(a, g, g[i], i) < Unmatched(a, g, g[i], |a|) then Present
    else Absent
  }

  /** Classification of two normalised words of equal length. */
  function Classify(a: string, g: string): seq<LetterState>
    requires |a| == |g|
  {
    seq(|a|, i requires 0 <= i < |a| => StateAt(a, g, i))
  }

  /** Reference definition of the evaluator: both words are lowercased, a
      length difference is an error, and otherwise every position gets its
      state. */
  function Evaluate(answer: string, guess: string): (r: Evaluation)
    ensures r.LengthMismatch? <==> |guess| != |answer|
    ensures r.LengthMismatch? ==> r.expected == |answer|
    ensures r.Evaluated? ==> |r.states| == |answer|
    ensures r.Evaluated? ==> forall i | 0 <= i < |answer| ::
      r.states[i] == Correct <==> Lower(guess[i]) == Lower(answer[i])
  {
    var a := LowerStr(answer);
    var g := LowerStr(guess);
    if |g| != |a| then LengthMismatch(|a|) else Evaluated(Classify(a, g))
  }

  /** Count stored under `c` in a per-letter counter, 0 when absent. */
  function Avail(m: map<char, nat>, c: char): nat
  {
    if c in m then m[c] else 0
  }

  /** The budget of `c` still unspent after the non-exact positions before i
      have claimed theirs. */
  function Remaining(a: string, g: string, c: char, i: nat): nat
    requires i <= |a| == |g|
  {
    var u := Unmatched(a, g, c, |a|);
    var m := Missed(a, g, c, i);
    if m <= u then u - m else 0
  }

  /** Pass 1: marks the exact matches and counts, per letter, the answer
      letters that were not matched exactly. */
  method ExactPass(a: string, g: string) returns (result: seq<LetterState>, unused: map<char, nat>)
    requires |a| == |g|
    ensures |result| == |a|
    ensures forall j | 0 <= j < |a| :: result[j] == (if a[j] == g[j] then Correct else Absent)
    ensures forall c :: Avail(unused, c) == Unmatched(a, g, c, |a|)
  {
    var n := |a|;
    result := seq(n, _ => Absent);
    unused := map[];
    var i := 0;
    while i < n
      invariant 0 <= i <= n
      invariant |result| == n
      invariant forall j | 0 <= j < n ::
        result[j] == (if j < i && a[j] == g[j] then Correct else Absent)
      invariant forall c :: Avail(unused, c) == Unmatched(a, g, c, i)
    {
      if g[i] == a[i] {
        result := result[i := Correct];
      } else {
        var count := Avail(unused, a[i]);
        unused := unused[a[i] := count + 1];
      }
      i := i + 1;
    }
  }

  /** Pass 2: scans left to right and gives `Present` to a non-exact position
      while its letter's count lasts, spending one unit each time. */
  method PartialPass(a: string, g: string, marks: seq<LetterState>, counts: map<char, nat>)
    returns (result: seq<LetterState>)
    requires |a| == |g| == |marks|
    requires forall j | 0 <= j < |a| :: marks[j] == (if a[j] == g[j] then Correct else Absent)
    requires forall c :: Avail(counts, c) == Unmatched(a, g, c, |a|)
    ensures result == Classify(a, g)
  {
    var n := |a|;
    result := marks;
    var unused := counts;
    var i := 0;
    while i < n
      invariant 0 <= i <= n
      invariant |result| == n
      invariant forall j | 0 <= j < i :: result[j] == StateAt(a, g, j)
      invariant forall j | i <= j < n :: result[j] == marks[j]
      invariant forall c :: Avail(unused, c) == Remaining(a, g, c, i)
    {
      ghost var before := unused;
      if result[i] != Correct {
        var available := Avail(unused, g[i]);
        if available > 0 {
          result := result[i := Present];
          unused := unused[g[i] := available - 1];
        }
      }
      forall c
        ensures Avail(unused, c) == Remaining(a, g, c, i + 1)
      {
        assert Avail(before, c) == Remaining(a, g, c, i);
        assert Missed(a, g, c, i + 1) == Missed(a, g, c, i) + (if a[i] != g[i] && g[i] == c then 1 else 0);
        if c != g[i] || a[i] == g[i] {
          assert Avail(unused, c) == Avail(before, c);
        }
      }
      i := i + 1;
    }
  }

  /** The two-pass evaluator: both words are lowercased, a length difference
      fails, and otherwise pass 1 and pass 2 run in order. It computes exactly
      the reference evaluation. */
  method EvaluateGuess(answer: string, guess: string) returns (r: Evaluation)
    ensures r == Evaluate(answer, guess)
  {
    var a := LowerStr(answer);
    var g := LowerStr(guess);
    if |g| != |a| {
      return LengthMismatch(|a|);
    }
    var marks, counts := ExactPass(a, g);
    var states := PartialPass(a, g, marks, counts);
    return Evaluated(states);
  }
}

=== FILE: wordle_laws.dfy ===
/** Properties of the guess evaluator: repeated letters, the per-letter
    budget, left-to-right priority and case insensitivity. */
module WordleLaws {
  import opened CaseFold
  import opened Wordle

  function Min(x: nat, y: nat): nat { if x <= y then x else y }

  /** Number of positions j < n whose state is `s` and whose guess letter is `c`. */
  function Tally(r: seq<LetterState>, g: string, s: LetterState, c: char, n: nat): nat
    requires n <= |r| && n <= |g|
  {
    if n == 0 then 0
    else Tally(r, g, s, c, n - 1) + (if r[n - 1] == s && g[n - 1] == c then 1 else 0)
  }

  /** Number of positions j < n that match exactly and hold `c`. */
  function Exact(a: string, g: string, c: char, n: nat): nat
    requires n <= |a| == |g|
  {
    if n == 0 then 0
    else Exact(a, g, c, n - 1) + (if a[n - 1] == g[n - 1] && a[n - 1] == c then 1 else 0)
  }

  lemma {:induction false} PresentPrefix(a: string, g: string, c: char, n: nat)
    requires n <= |a| == |g|
    ensures Tally(Classify(a, g), g, Present, c, n) == Min(Missed(a, g, c, n), Unmatched(a, g, c, |a|))
  {
    if n > 0 {
      PresentPrefix(a, g, c, n - 1);
    }
  }

  lemma {:induction false} CorrectPrefix(a: string, g: string, c: char, n: nat)
    requires n <= |a| == |g|
    ensures Tally(Classify(a, g), g, Correct, c, n) == Exact(a, g, c, n)
  {
    if n > 0 {
      CorrectPrefix(a, g, c, n - 1);
    }
  }

  /** Every copy of `c` in the answer is either matched exactly or unmatched. */
  lemma {:induction false} AnswerCountSplits(a: string, g: string, c: char, n: nat)
    requires n <= |a| == |g|
    ensures multiset(a[..n])[c] == Exact(a, g, c, n) + Unmatched(a, g, c, n)
  {
    if n > 0 {
      AnswerCountSplits(a, g, c, n - 1);
      assert a[..n] == a[..n - 1] + [a[n - 1]];
    }
  }

  /** For every letter, the number of `Present` positions guessing it is the
      smaller of its non-exact guess occurrences and its non-exact answer
      occurrences. */
  lemma PresentMatchesBudget(answer: string, guess: string, c: char)
    requires |answer| == |guess|
    ensures var a, g := LowerStr(answer), LowerStr(guess);
      Tally(Evaluate(answer, guess).states, g, Present, c, |a|)
        == Min(Missed(a, g, c, |a|), Unmatched(a, g, c, |a|))
  {
    PresentPrefix(LowerStr(answer), LowerStr(guess), c, |answer|);
  }

  /** Credit never exceeds supply: for every letter, the positions guessing it
      that are `Correct` or `Present` are no more than its copies in the
      answer. */
  lemma CreditWithinAnswerCount(answer: string, guess: string, c: char)
    requires |answer| == |guess|
    ensures var a, g, r := LowerStr(answer), LowerStr(guess), Evaluate(answer, guess).states;
      Tally(r, g, Correct, c, |a|) + Tally(r, g, Present, c, |a|) <= multiset(a)[c]
  {
    var a, g := LowerStr(answer), LowerStr(guess);
    PresentPrefix(a, g, c, |a|);
    CorrectPrefix(a, g, c, |a|);
    AnswerCountSplits(a, g, c, |a|);
    assert a[..|a|] == a;
  }

  /** Each earlier non-exact guess of `c` is counted by `Missed` at any later position. */
  lemma {:induction false} MissedGrows(a: string, g: string, i: nat, j: nat)
    requires i < j <= |a| == |g|
    requires a[i] != g[i]
    ensures Missed(a, g, g[i], i) < Missed(a, g, g[i], j)
  {
    if j > i + 1 {
      MissedGrows(a, g, i, j - 1);
    }
  }

  /** Among the non-exact positions guessing the same letter, `Present` goes to
      the leftmost ones: a later one is present only if every earlier one is. */
  lemma LeftmostArePresent(answer: string, guess: string, i: nat, j: nat)
    requires |answer| == |guess|
    requires i < j < |answer|
    requires var a, g := LowerStr(answer), LowerStr(guess);
      a[i] != g[i] && a[j] != g[j] && g[i] == g[j]
    ensures var r := Evaluate(answer, guess).states;
      r[j] == Present ==> r[i] == Present
  {
    MissedGrows(LowerStr(answer), LowerStr(guess), i, j);
  }

  lemma {:induction false} NoUnmatchedCopies(a: string, g: string, c: char, n: nat)
    requires n <= |a| == |g|
    requires forall j | 0 <= j < n :: a[j] != g[j] ==> a[j] != c
    ensures Unmatched(a, g, c, n) == 0
  {
    if n > 0 {
      NoUnmatchedCopies(a, g, c, n - 1);
    }
  }

  /** A non-exact position whose letter occurs at no non-exact answer position
      is absent. */
  lemma AbsentWithoutBudget(answer: string, guess: string, i: nat)
    requires |answer| == |guess|
    requires i < |answer|
    requires var a, g := LowerStr(answer), LowerStr(guess);
      a[i] != g[i] && forall j | 0 <= j < |a| :: a[j] != g[j] ==> a[j] != g[i]
    ensures Evaluate(answer, guess).states[i] == Absent
  {
    var a, g := LowerStr(answer), LowerStr(guess);
    NoUnmatchedCopies(a, g, g[i], |a|);
  }

  /** A guess equal to the answer up to case is correct everywhere. */
  lemma SameWordAllCorrect(answer: string, guess: string)
    requires LowerStr(answer) == LowerStr(guess)
    ensures Evaluate(answer, guess) == Evaluated(seq(|answer|, _ => Correct))
  {
    var r := Evaluate(answer, guess);
    assert r.states == seq(|answer|, _ => Correct);
  }

  /** Uppercasing either argument does not change the evaluation. */
  lemma CaseInsensitive(answer: string, guess: string)
    ensures Evaluate(UpperStr(answer), guess) == Evaluate(answer, guess)
    ensures Evaluate(answer, UpperStr(guess)) == Evaluate(answer, guess)
  {
    LowerStrOfUpperStr(answer);
    LowerStrOfUpperStr(guess);
  }

  /** A reversed guess keeps only the middle letter in place. */
  lemma ReversedGuess()
    ensures Evaluate("abcde", "edcba") == Evaluated([Present, Present, Correct, Present, Present])
  {
    var a, g := "abcde", "edcba";
    assert LowerStr(a) == a && LowerStr(g) == g;
    assert Classify(a, g) == [Present, Present, Correct, Present, Present] by {
      assert Unmatched(a, g, 'e', 5) == 1 && Unmatched(a, g, 'd', 5) == 1;
      assert Unmatched(a, g, 'b', 5) == 1 && Unmatched(a, g, 'a', 5) == 1;
    }
  }

  /** Repeated letters: the third `a` of the guess finds no unmatched `a` left. */
  lemma RepeatedLetters()
    ensures Evaluate("aabbc", "ababa") == Evaluated([Correct, Present, Present, Correct, Absent])
  {
    var a, g := "aabbc", "ababa";
    assert LowerStr(a) == a && LowerStr(g) == g;
    assert Classify(a, g) == [Correct, Present, Present, Correct, Absent] by {
      assert Unmatched(a, g, 'a', 5) == 1 && Unmatched(a, g, 'b', 5) == 1;
      assert Missed(a, g, 'a', 2) == 0 && Missed(a, g, 'a', 4) == 1;
      assert Missed(a, g, 'b', 1) == 0;
    }
  }

  lemma LengthMismatchFails()
    ensures Evaluate("hello", "hell") == LengthMismatch(5)
  {
  }
}
